=== FILE: README.md ===
# InstaImageCrawler — a Dafny model of the incremental crawl

`InstaImageCrawler` collects Instagram posts tag by tag, together with their
images. Each tag keeps a time log: the whole-second start time of the last
crawl. A run crawls each tag's feed down to that watermark. It turns each
post into a table row carrying the caption's hashtags. It downloads each
row's image. Rows whose image arrived join the archive (`post_data.pickle`).
Rows whose image failed in a way worth retrying are kept in
`image_not_downloaded.pickle`. Rows whose image is gone (a 404) are dropped.
Finally the run rewrites every tag's log and moves the images out of the
temporary directory.

This project models the decision logic of that class as pure functions:

| file | module | models |
|---|---|---|
| `wrappers.dfy` | `Wrappers` | `Option` |
| `sequences.dfy` | `Sequences` | small facts about prefixes and concatenation |
| `py_strings.dfy` | `PyStrings` | `str.split`, `str.lstrip`, `str.strip`, `''.join` over a filter |
| `decimal.dfy` | `Decimal` | `str(int)`, and reading a watermark as an optional sign followed by decimal digits |
| `captions.dfy` | `Captions` | `findTag` and `filter_tags` |
| `posts.dfy` | `Posts` | the raw post, the row dict, `makeURL`, `makeRowDict` |
| `crawl_loop.dfy` | `CrawlLoop` | the loop of `crawlTag` as a state machine with three stop reasons |
| `time_log.dfy` | `TimeLog` | reading, writing and creating the per-tag time logs |
| `image_stage.dfy` | `ImageStage` | `downloadImage`: classifying fetches and splitting the table |
| `run.dfy` | `Run` | `crawl()` with `mergeTemp` as one transition of the persisted state |

The persisted state of the crawler is `Run.RunState`. It holds the archive,
the pending table, the text of every time log, the names in the image
directory and the names in the temporary image directory. A run is
`Run.CrawlRun`. Its inputs are the tags, one feed per tag, the clock reading
at each tag's start, and the outcome of each image fetch.

Two places where the code does not do what it evidently sets out to do:

- `crawl()` calls `drop_duplicates(subset='postid')` but discards its
  result, so no duplicate post id is ever removed. The model follows the
  code and performs no deduplication. `Run.DuplicatesReachArchive` shows a
  post reaching the archive twice.
- `downloadImage` records `row.index` for each row. On a pandas named tuple
  that is the tuple's `index` method, not the row label `row.Index`. The
  model keeps both readings; see "## Findings". `Run.CrawlRun` uses the
  intended reading, which partitions the batch by position.

## Model

| member | source | states |
|---|---|---|
| Captions.FindTagFrom | instagram_image_crawler.py:146-154 | started outside a tag, the capture is empty exactly when there is no `#` ahead, and otherwise starts with `#`; a newline is never captured |
| Captions.FindTag | instagram_image_crawler.py:142-155 | the result is empty exactly when the caption has no `#`; otherwise it starts with `#`; it never holds a newline |
| Captions.FindTagIsCaptures | instagram_image_crawler.py:142-155 | the flag-driven loop equals a reference definition: skip to the first `#`, capture every non-newline character up to and including the next space, repeat |
| Captions.CaptureIsCaptureAfterHash | instagram_image_crawler.py:149-154 | inside a tag the loop captures exactly what the reference capture takes after a `#` |
| Captions.HashOpensCapture | instagram_image_crawler.py:149-152 | characters before the first `#` are dropped and the capture starts with that `#` |
| Captions.SpaceClosesCapture | instagram_image_crawler.py:151-154 | a capture includes the terminating space and ends there; the next tag needs a new `#` |
| Captions.CaptureToEnd | instagram_image_crawler.py:146-152 | a tag that runs to the end of the caption is captured without its newlines |
| Captions.TwoHashtags | instagram_image_crawler.py:142-155 | a caption with two space-terminated tags yields both tags with their `#` and trailing spaces, and nothing of the text around them |
| Captions.FindTagExample | instagram_image_crawler.py:142-155 | `findTag("hello #foo #bar world")` is `"#foo #bar "` |
| Captions.TagChars | instagram_image_crawler.py:239 | keeps only alphanumeric characters and `#` |
| Captions.TagCharsCounts | instagram_image_crawler.py:239 | every alphanumeric character and `#` of the input is kept as often as it occurs; every other character is dropped |
| PyStrings.KeepCounts | instagram_image_crawler.py:239 | the generator filter keeps every character that passes the test as often as it occurs, and drops every other character |
| PyStrings.KeepConcat | instagram_image_crawler.py:239 | the filter distributes over concatenation; with `PyStrings.KeepOne` (one character is kept exactly when it passes) this fixes the result, order included |
| Captions.FilterTags | instagram_image_crawler.py:238-241 | at least one word; each word is alphanumeric without `#`; the words joined by `#` give back the filtered text with its leading `#`s removed |
| Captions.FilterTagsOfJoined | instagram_image_crawler.py:238-241 | `#` followed by `#`-joined alphanumeric words, the first non-empty, splits back into exactly those words |
| Captions.FilterTagsTwoWords | instagram_image_crawler.py:238-241 | the string `findTag` makes for two tags splits into the two tag words |
| Captions.FilterTagsExample | instagram_image_crawler.py:238-241 | `filter_tags("#foo #bar ")` is `["foo", "bar"]` |
| PyStrings.Split | instagram_image_crawler.py:240 | `str.split` gives at least one piece, no piece contains the separator, and joining the pieces gives the input back |
| PyStrings.SplitJoin | instagram_image_crawler.py:240 | splitting the join of separator-free pieces gives those pieces back |
| PyStrings.TrimStart | instagram_image_crawler.py:240 | `lstrip` removes exactly the longest leading run of the stripped class and returns a suffix of the input |
| PyStrings.StripPadded | instagram_image_crawler.py:67 | `strip` removes surrounding whitespace and leaves a core that neither starts nor ends with whitespace |
| Decimal.ShowParse | instagram_image_crawler.py:215 | the decimal text of an integer parses back to that integer and starts and ends without whitespace |
| Posts.MakeURLRoundTrip | instagram_image_crawler.py:157-158 | the shortcode is recovered from the permalink, and a permalink that parses is the one made from its shortcode |
| Posts.MakeRowDict | instagram_image_crawler.py:120-140 | a post is rejected exactly when it has no caption or its caption has no `#`; otherwise the row copies id, owner, date and image URL, links the permalink and stores the caption's tag text |
| CrawlLoop.CrawlFrom | instagram_image_crawler.py:100-113 | the rows collected are a prefix of the normalised rows and are all dated after the watermark |
| CrawlLoop.CrawlFromStop | instagram_image_crawler.py:102-103 | feed exhaustion means every normalised row was collected; reaching the watermark means the next normalised row is dated at or before it |
| CrawlLoop.CrawlFromGoal | instagram_image_crawler.py:106-113 | the goal stop happens exactly when a positive goal is met; a positive goal bounds the count |
| CrawlLoop.CrawlTag | instagram_image_crawler.py:79-118 | the rows are a prefix of the normalised feed, all newer than the watermark; each stop reason says why the loop ended; `goal = 0` never stops it |
| CrawlLoop.DescribesUnique | instagram_image_crawler.py:84-113 | the stop conditions determine the outcome: two outcomes that satisfy them for the same rows are equal |
| CrawlLoop.CrawlSeesOnlyNormalisedRows | instagram_image_crawler.py:86-99 | the outcome depends only on the rows that survive the lookup and normalisation |
| CrawlLoop.SkippedItemDoesNotStop | instagram_image_crawler.py:86-99 | a failed lookup or a rejected post neither stops the crawl nor counts toward the goal |
| CrawlLoop.DecreasingFeedGivesNewerPosts | instagram_image_crawler.py:84-103 | on a feed with strictly decreasing dates and no goal, the crawl returns exactly the rows newer than the watermark, in feed order |
| TimeLog.Seconds | instagram_image_crawler.py:215 | `int(timestamp())` truncates toward zero: at most one second below the instant when it is after the epoch, above it otherwise |
| TimeLog.ReadWatermark | instagram_image_crawler.py:66-71 | a log holding a number reads that number; an empty log, or one whose text does not parse, reads 0 |
| TimeLog.CorruptLogReadsZero | instagram_image_crawler.py:68-71 | a log whose stripped text is not a signed numeral reads as watermark 0 |
| TimeLog.StrayCharReadsZero | instagram_image_crawler.py:68-71 | a non-digit anywhere after the first character, or a first character that is neither a digit nor a sign, makes the log read as 0 |
| TimeLog.WriteWatermark | instagram_image_crawler.py:213-215 | the written text is non-empty and has no whitespace at either end |
| TimeLog.WatermarkRoundTrip | instagram_image_crawler.py:66-71 | what `updateTimeLog` writes, `crawlTag` reads back as the start second |
| TimeLog.PaddedWatermarkRoundTrip | instagram_image_crawler.py:67 | whitespace around the written number does not change what is read |
| TimeLog.BlankLogReadsZero | instagram_image_crawler.py:68-71 | a blank log reads as watermark 0 |
| TimeLog.EnsureLogs | instagram_image_crawler.py:42-45 | afterwards every tag has a log; existing logs keep their text; new logs are empty |
| TimeLog.FreshLogsReadZero | instagram_image_crawler.py:42-45 | on a fresh log directory every tag reads watermark 0 |
| ImageStage.Labels | instagram_image_crawler.py:179-200 | by position, the recorded labels are exactly the positions whose fetch has the given fate; as written, every label is the `index` method and the list is empty exactly when no row has that fate |
| ImageStage.FilterItems | instagram_image_crawler.py:206 | `filter(items=)` yields only rows of the table, at most one per label |
| ImageStage.Drop | instagram_image_crawler.py:208 | `drop` fails exactly when some label is not a row of the table |
| ImageStage.WithFate | instagram_image_crawler.py:179-200 | the rows whose fetch has a given fate, in order |
| ImageStage.FilterByPosition | instagram_image_crawler.py:206 | filtering by the positions of a fate yields the rows with that fate, in order |
| ImageStage.OmitByPosition | instagram_image_crawler.py:208 | dropping the positions of 404s and retries leaves exactly the downloaded rows |
| ImageStage.Download | instagram_image_crawler.py:179-211 | by position, the kept table is the rows whose image arrived and the returned table is the rows to retry |
| ImageStage.DownloadAsWritten | instagram_image_crawler.py:179-211 | as written, the stage completes exactly when every image arrives, keeping every row and deferring none |
| ImageStage.AsWrittenAgreesWhenAllArrive | instagram_image_crawler.py:206-209 | when every image arrives, the as-written stage and the by-position stage agree |
| ImageStage.SingleMissingImage | instagram_image_crawler.py:194-208 | one row whose image is a 404 makes the as-written stage fail, while by position it leaves both tables empty |
| ImageStage.FatesPartition | instagram_image_crawler.py:179-200 | downloaded, missing and deferred rows together are the batch, as a multiset and by count |
| ImageStage.SameFileSamePost | instagram_image_crawler.py:189 | two rows' images share a file name only when their post ids and the last three characters of their URLs agree, so images of different posts never collide |
| Run.CrawlAll | instagram_image_crawler.py:244-246 | every collected row comes from crawling some tag's feed from that tag's watermark |
| Run.CrawlAllBlock | instagram_image_crawler.py:244-246 | the rows of each tag's crawl sit in the batch as one block, after the blocks of the tags listed before it |
| Run.CrawlAllComplete | instagram_image_crawler.py:244-246 | every row any tag's crawl returns is in the batch |
| Run.RecordStarts | instagram_image_crawler.py:77 | each listed tag has a start time, and a tag listed twice keeps its last one |
| Run.WriteLogs | instagram_image_crawler.py:253-254 | every listed tag's log holds its written start second; other logs are untouched |
| Run.RunMovesImages | instagram_image_crawler.py:228-232 | over a run, the image directory gains exactly the images left in the temporary directory and those downloaded in this run, and loses none; of these, only the ones whose name was already taken stay in the temporary directory |
| Run.CrawlRun | instagram_image_crawler.py:243-255 | downloaded rows join the archive, rows to retry become the pending table, 404 rows leave, and nothing else is gained or lost; logs advance to the start second of each tag's last crawl; downloaded images land in the image directory |
| Run.CrawlRunAsWritten | instagram_image_crawler.py:243-255 | as written, the run completes exactly when every image arrives; otherwise only the temporary images change |
| Run.RunAdvancesWatermark | instagram_image_crawler.py:253-254 | after a run, a tag's next crawl collects only posts dated after the second its previous crawl started |
| Run.EveryImageArrives | instagram_image_crawler.py:206-209 | when every image arrives, the whole batch joins the archive and nothing is pending |
| Run.BatchOfRepeatedTag | instagram_image_crawler.py:244-249 | a tag listed twice is crawled twice from the same watermark |
| Run.DuplicatesReachArchive | instagram_image_crawler.py:248 | the discarded `drop_duplicates` lets the rows of a twice-listed tag reach the archive twice |
| Run.PendingRowsRetried | instagram_image_crawler.py:168-172 | the previous run's pending rows come last in this run's batch, in their order |
| Run.FetchDecidesRow | instagram_image_crawler.py:179-211 | a row whose image arrives joins the archive; a row whose fetch is neither 200 nor 404 becomes pending |
| Run.AbortedRunRepeats | instagram_image_crawler.py:206-255 | as written, an aborted run leaves archive, pending table and logs unchanged, so the same run aborts again |

## Left out

- The feed of a hashtag (`InstaLooter.medias` and `get_post_info`) is an input: one sequence of feed items per tag. A failed lookup (the `KeyError` and `AttributeError` of lines 86-91) is the item `LookupFailed`.
- A post whose caption path is missing (the `IndexError` of line 124) is modelled as a post with no caption texts. The other keys `makeRowDict` reads are always present in `Posts.RawPost`. The `KeyError` a record without them would raise, aborting the run, is not modelled.
- The image requests are an input: `fetch(i)` is the outcome for the `i`-th row of the batch. Request exceptions other than `ConnectionResetError` would abort the run and are not modelled.
- The clock is an input: `starts[k]` is the reading when the `k`-th tag's crawl began.
- `sleep(0.7)`, the progress `print`s and the `__del__` call are not modelled. The code pauses only after an image arrives, not after a failed or missing one.
- `loadTag` and the directory creation in `makeBase` are not modelled. The tags are an input, and the directories are assumed to exist.
- The pickle format, the image bytes and path joining are not modelled. Files are their names; tables are sequences of rows.
- TimeLog.ReadWatermark: accepts only an optional sign and decimal digits. In the source, `float()` also accepts fractions, exponents, `_` between digits, non-ASCII digits, `inf` and `nan`. A fraction or exponent in range is read as its value there, but reads as 0 here. The crawler itself only ever writes integers.
- A watermark outside the range of `datetime` is not modelled. Line 75 passes the watermark to `datetime.fromtimestamp` inside a `print`, outside any `try`. A log holding `inf`, `nan`, or a number past the year 9999 (such as `300000000000`) makes that call raise, so the run aborts before any row or log is written. Nothing is written, so every later run aborts the same way. Here any integer reads as the watermark and the run completes. This contradicts the intent that a corrupt watermark is never fatal; the crawler itself never writes such a value.
- `float()` rounding of very large post dates and watermarks is not modelled; dates are integers.
- `isalnum` is a parameter `isAlnum` of the model, because Python's Unicode tables are not modelled. `strip` removes ASCII whitespace only.
- `DataFrame.append` is modelled as sequence concatenation with `ignore_index=True`. A missing or unreadable `image_not_downloaded.pickle` counts as an empty pending table, as the bare `except` of line 171 makes it. A missing `post_data.pickle` counts as an empty archive (the `OSError` of line 223).
- A `post_data.pickle` that exists but cannot be unpickled is not modelled. Line 223 catches only `OSError`, so the `EOFError` or `UnpicklingError` propagates out of `mergeTemp`. By then lines 251-254 have rewritten the pending pickle and every time log. The rows downloaded in that run are lost, and the watermarks move past them.

## Findings

| source | as written | input that shows it | evidently intended | confidence | as-written member | corrected member |
|---|---|---|---|---|---|---|
| instagram_image_crawler.py:186-208 | `row.index` is the named tuple's `index` method, so the lists hold no row labels: `filter(items=...)` finds nothing and `drop(...)` raises `KeyError` as soon as one list is non-empty | a batch of one row whose image request returns 404 | record `row.Index`, so that 404 rows are dropped, retries are returned, and downloaded rows are kept | not executed | ImageStage.DownloadAsWritten | ImageStage.Download |

=== FILE: captions.dfy ===
/**
 Caption hashtag extraction, in its two phases: `findTag` captures raw
 hashtag text from one caption, and `filter_tags` later turns that raw
 text into a list of tag words.
 */
module Captions {
  import opened PyStrings

  predicate IsHash(c: char)
  {
    c == '#'
  }

  predicate NotNewline(c: char)
  {
    c != '\n'
  }

  /**
   The scan of `findTag` over `s`, starting with the capture flag set to
   `capturing`. A newline is skipped before anything else is looked at; a
   `#` raises the flag; while the flag is up the character is appended;
   a space lowers it after being appended.
   */
  function FindTagFrom(s: string, capturing: bool): (r: string)
    ensures '\n' !in r
    ensures !capturing ==> (r == [] <==> '#' !in s)
    ensures !capturing && r != [] ==> r[0] == '#'
    decreases |s|
  {
    if s == [] then []
    else if s[0] == '\n' then FindTagFrom(s[1..], capturing)
    else
      var flag := capturing || s[0] == '#';
      assert s == [s[0]] + s[1..];
      (if flag then [s[0]] else []) + FindTagFrom(s[1..], flag && s[0] != ' ')
  }

  /** `findTag(caption)`: the raw, concatenated capture of every hashtag in the caption. */
  function FindTag(caption: string): (tags: string)
    ensures tags == [] <==> '#' !in caption
    ensures tags != [] ==> tags[0] == '#'
    ensures '\n' !in tags
  {
    FindTagFrom(caption, false)
  }

  /**
   Reference reading of `findTag`, one hashtag at a time: each capture
   runs from a `#` up to and including the next space (newlines dropped),
   or to the end of the caption when no space follows.
   */
  function Captures(s: string): string
    decreases |s|
  {
    if '#' !in s then [] else ['#'] + CaptureAfterHash(s[IndexOf(s, '#') + 1..])
  }

  /** The rest of a capture whose `#` has just been read, then the captures after it. */
  function CaptureAfterHash(rest: string): string
    decreases |rest|
  {
    if ' ' !in rest then Keep(rest, NotNewline)
    else
      var j := IndexOf(rest, ' ');
      Keep(rest[..j], NotNewline) + [' '] + Captures(rest[j + 1..])
  }

  /** Text before the first `#` contributes nothing. */
  lemma {:induction false} SkipUntilHash(pre: string, rest: string)
    requires '#' !in pre
    ensures FindTagFrom(pre + rest, false) == FindTagFrom(rest, false)
    decreases |pre|
  {
    if pre == [] {
      assert pre + rest == rest;
    } else {
      assert (pre + rest)[0] == pre[0];
      assert (pre + rest)[1..] == pre[1..] + rest;
      SkipUntilHash(pre[1..], rest);
    }
  }

  /** While capturing, every character up to a space is kept except newlines. */
  lemma {:induction false} CaptureUntilSpace(w: string, rest: string)
    requires ' ' !in w
    ensures FindTagFrom(w + rest, true) == Keep(w, NotNewline) + FindTagFrom(rest, true)
    decreases |w|
  {
    if w == [] {
      assert w + rest == rest;
    } else {
      var s := w + rest;
      assert s[0] == w[0] && s[0] != ' ';
      assert s[1..] == w[1..] + rest;
      assert FindTagFrom(s, true) == (if w[0] == '\n' then [] else [w[0]]) + FindTagFrom(s[1..], true);
      assert Keep(w, NotNewline) == (if w[0] == '\n' then [] else [w[0]]) + Keep(w[1..], NotNewline);
      CaptureUntilSpace(w[1..], rest);
    }
  }

  /** `findTag` and the one-hashtag-at-a-time reading agree on every caption. */
  lemma {:induction false} FindTagIsCaptures(s: string)
    ensures FindTag(s) == Captures(s)
    decreases |s|
  {
    if '#' in s {
      var i := IndexOf(s, '#');
      HashOpensCapture(s, i);
      CaptureIsCaptureAfterHash(s[i + 1..]);
    }
  }

  lemma {:induction false} CaptureIsCaptureAfterHash(rest: string)
    ensures FindTagFrom(rest, true) == CaptureAfterHash(rest)
    decreases |rest|
  {
    if ' ' !in rest {
      CaptureToEnd(rest);
    } else {
      var j := IndexOf(rest, ' ');
      SpaceClosesCapture(rest, j);
      FindTagIsCaptures(rest[j + 1..]);
    }
  }

  /** The first `#` opens the first capture. */
  lemma HashOpensCapture(s: string, i: nat)
    requires i < |s| && s[i] == '#' && forall k :: 0 <= k < i ==> s[k] != '#'
    ensures FindTag(s) == ['#'] + FindTagFrom(s[i + 1..], true)
  {
    var rest := s[i + 1..];
    SplitAround(s, i);
    SkipUntilHash(s[..i], ['#'] + rest);
    assert (['#'] + rest)[1..] == rest;
  }

  /** With no space left, the capture runs to the end of the caption. */
  lemma CaptureToEnd(rest: string)
    requires ' ' !in rest
    ensures FindTagFrom(rest, true) == Keep(rest, NotNewline)
  {
    CaptureUntilSpace(rest, []);
    assert rest + [] == rest;
  }

  /** A capture ends with, and includes, the first space after its `#`. */
  lemma SpaceClosesCapture(rest: string, j: nat)
    requires j < |rest| && rest[j] == ' ' && forall k :: 0 <= k < j ==> rest[k] != ' '
    ensures FindTagFrom(rest, true) == Keep(rest[..j], NotNewline) + [' '] + FindTagFrom(rest[j + 1..], false)
  {
    var tail := rest[j + 1..];
    SplitAround(rest, j);
    CaptureUntilSpace(rest[..j], [' '] + tail);
    SpaceEndsCapture(tail);
  }

  lemma SpaceEndsCapture(tail: string)
    ensures FindTagFrom([' '] + tail, true) == [' '] + FindTagFrom(tail, false)
  {
    assert ([' '] + tail)[1..] == tail;
  }

  /** The characters `filter_tags` keeps: alphanumerics and `#`, in order. */
  function TagChars(s: string, isAlnum: char -> bool): (r: string)
    ensures forall i :: 0 <= i < |r| ==> isAlnum(r[i]) || r[i] == '#'
  {
    Keep(s, c => isAlnum(c) || c == '#')
  }

  /**
   Every alphanumeric character and every `#` of the input survives, as
   often as it occurs; spaces, punctuation and the rest are dropped.
   */
  lemma TagCharsCounts(s: string, isAlnum: char -> bool)
    ensures forall c :: isAlnum(c) || c == '#' ==> multiset(TagChars(s, isAlnum))[c] == multiset(s)[c]
    ensures forall c :: !isAlnum(c) && c != '#' ==> multiset(TagChars(s, isAlnum))[c] == 0
  {
    KeepCounts(s, c => isAlnum(c) || c == '#');
  }

  /**
   `filter_tags(tags)`: keep alphanumerics and `#`, strip leading `#`s,
   split on `#`. `isAlnum` stands for Python's `str.isalnum`.
   */
  function FilterTags(tags: string, isAlnum: char -> bool): (words: seq<string>)
    ensures |words| >= 1
    ensures forall k, i :: 0 <= k < |words| && 0 <= i < |words[k]| ==> isAlnum(words[k][i]) && words[k][i] != '#'
    ensures Join(words, '#') == TrimStart(TagChars(tags, isAlnum), IsHash)
  {
    var chars := TagChars(tags, isAlnum);
    var kept := TrimStart(chars, IsHash);
    assert forall i :: 0 <= i < |kept| ==> kept[i] == chars[|chars| - |kept| + i];
    SplitKeepsClass(kept, '#', c => isAlnum(c) || c == '#');
    var words := Split(kept, '#');
    assert forall k, i :: 0 <= k < |words| && 0 <= i < |words[k]| ==> words[k][i] != '#' by {
      forall k, i | 0 <= k < |words| && 0 <= i < |words[k]| ensures words[k][i] != '#' {
        assert words[k][i] in words[k];
      }
    }
    words
  }

  /** `filter_tags` undoes joining alphanumeric words behind a `#`. */
  lemma FilterTagsOfJoined(words: seq<string>, isAlnum: char -> bool)
    requires |words| >= 1 && words[0] != []
    requires forall k, i :: 0 <= k < |words| && 0 <= i < |words[k]| ==> isAlnum(words[k][i]) && words[k][i] != '#'
    ensures FilterTags("#" + Join(words, '#'), isAlnum) == words
  {
    var joined := Join(words, '#');
    JoinChars(words, '#');
    KeepAll("#" + joined, c => isAlnum(c) || c == '#');
    assert TagChars("#" + joined, isAlnum) == "#" + joined;
    assert joined[0] == words[0][0];
    assert TrimStart("#" + joined, IsHash) == joined;
    SplitJoin(words, '#');
  }

  /** Every character of a join is a separator or a character of some piece. */
  lemma {:induction false} JoinChars(words: seq<string>, sep: char)
    ensures forall i :: 0 <= i < |Join(words, sep)| ==>
      Join(words, sep)[i] == sep || exists k, j :: 0 <= k < |words| && 0 <= j < |words[k]| && Join(words, sep)[i] == words[k][j]
    ensures |words| >= 1 && words[0] != [] ==> Join(words, sep)[0] == words[0][0]
    decreases |words|
  {
    if |words| > 1 {
      JoinChars(words[1..], sep);
      var s := Join(words, sep);
      var rest := Join(words[1..], sep);
      assert s == words[0] + [sep] + rest;
      forall i | 0 <= i < |s|
        ensures s[i] == sep || exists k, j :: 0 <= k < |words| && 0 <= j < |words[k]| && s[i] == words[k][j]
      {
        if i < |words[0]| {
          assert s[i] == words[0][i];
        } else if i > |words[0]| {
          var i' := i - |words[0]| - 1;
          assert s[i] == rest[i'];
          if rest[i'] != sep {
            var k, j :| 0 <= k < |words[1..]| && 0 <= j < |words[1..][k]| && rest[i'] == words[1..][k][j];
            assert s[i] == words[k + 1][j];
          }
        }
      }
    }
  }

  /**
   Two hashtags each closed by a space: the capture is both tags with their
   closing spaces, whatever comes before the first `#` or after the second space.
   */
  lemma {:induction false} TwoHashtags(pre: string, foo: string, bar: string, post: string)
    requires '#' !in pre && '#' !in post
    requires ' ' !in foo && ' ' !in bar && '\n' !in foo && '\n' !in bar
    ensures FindTag(pre + ['#'] + foo + [' '] + ['#'] + bar + [' '] + post) == ['#'] + foo + [' '] + ['#'] + bar + [' ']
  {
    var second := ['#'] + (bar + ([' '] + post));
    var first := ['#'] + (foo + ([' '] + second));
    TwoTagsShape(pre, foo, bar, post);
    SkipUntilHash(pre, first);
    var r2 := SecondCapture(bar, post);
    var r1 := FirstCapture(foo, second);
    assert r1 == ['#'] + (foo + ([' '] + r2));
  }

  lemma TwoTagsShape(pre: string, foo: string, bar: string, post: string)
    ensures pre + ['#'] + foo + [' '] + ['#'] + bar + [' '] + post
      == pre + (['#'] + (foo + ([' '] + (['#'] + (bar + ([' '] + post))))))
    ensures ['#'] + foo + [' '] + ['#'] + bar + [' '] == ['#'] + (foo + ([' '] + (['#'] + (bar + [' ']))))
  {
  }

  lemma SecondCapture(bar: string, post: string) returns (r: string)
    requires '#' !in post && ' ' !in bar && '\n' !in bar
    ensures r == FindTagFrom(['#'] + (bar + ([' '] + post)), false)
    ensures r == ['#'] + (bar + [' '])
  {
    r := FirstCapture(bar, post);
  }

  lemma FirstCapture(foo: string, rest: string) returns (r: string)
    requires ' ' !in foo && '\n' !in foo
    ensures r == FindTagFrom(['#'] + (foo + ([' '] + rest)), false)
    ensures r == ['#'] + (foo + ([' '] + FindTagFrom(rest, false)))
  {
    var s := ['#'] + (foo + ([' '] + rest));
    assert s[1..] == foo + ([' '] + rest);
    CaptureUntilSpace(foo, [' '] + rest);
    SpaceEndsCapture(rest);
    KeepAll(foo, NotNewline);
    r := FindTagFrom(s, false);
  }

  /** The caption of the worked example: two hashtags, the second followed by a space. */
  lemma FindTagExample()
    ensures FindTag("hello #foo #bar world") == "#foo #bar "
  {
    assert "hello #foo #bar world" == "hello " + ['#'] + "foo" + [' '] + ['#'] + "bar" + [' '] + "world";
    assert "#foo #bar " == ['#'] + "foo" + [' '] + ['#'] + "bar" + [' '];
    TwoHashtags("hello ", "foo", "bar", "world");
  }

  /** `filter_tags` splits the raw capture of two hashtags into the two words. */
  lemma FilterTagsTwoWords(foo: string, bar: string, isAlnum: char -> bool)
    requires foo != [] && !isAlnum(' ')
    requires forall i :: 0 <= i < |foo| ==> isAlnum(foo[i]) && foo[i] != '#'
    requires forall i :: 0 <= i < |bar| ==> isAlnum(bar[i]) && bar[i] != '#'
    ensures FilterTags("#" + foo + " #" + bar + " ", isAlnum) == [foo, bar]
  {
    var raw := "#" + foo + " #" + bar + " ";
    var joined := Join([foo, bar], '#');
    KeepTwoWords(foo, bar, c => isAlnum(c) || c == '#');
    assert [foo, bar][1..] == [bar];
    assert Join([bar], '#') == bar;
    assert joined == foo + "#" + bar;
    assert TagChars(raw, isAlnum) == "#" + joined;
    HashThenWord(joined);
    SplitJoin([foo, bar], '#');
  }

  /** `lstrip('#')` removes a single leading `#` in front of a text not starting with one. */
  lemma HashThenWord(w: string)
    requires w != [] && w[0] != '#'
    ensures TrimStart("#" + w, IsHash) == w
  {
    assert ("#" + w)[1..] == w;
  }

  /** The worked example: `"#foo #bar "` gives `["foo", "bar"]`. */
  lemma FilterTagsExample(isAlnum: char -> bool)
    requires isAlnum('f') && isAlnum('o') && isAlnum('b') && isAlnum('a') && isAlnum('r')
    requires !isAlnum(' ')
    ensures FilterTags("#foo #bar ", isAlnum) == ["foo", "bar"]
  {
    var foo, bar := "foo", "bar";
    assert foo[0] == 'f' && foo[1] == 'o' && foo[2] == 'o';
    assert bar[0] == 'b' && bar[1] == 'a' && bar[2] == 'r';
    assert "#foo #bar " == "#" + foo + " #" + bar + " ";
    FilterTagsTwoWords(foo, bar, isAlnum);
  }

  /** Filtering the example's raw capture drops exactly its two spaces. */
  lemma KeepTwoWords(foo: string, bar: string, p: char -> bool)
    requires p('#') && !p(' ')
    requires forall i :: 0 <= i < |foo| ==> p(foo[i])
    requires forall i :: 0 <= i < |bar| ==> p(bar[i])
    ensures Keep("#" + foo + " #" + bar + " ", p) == "#" + foo + "#" + bar
  {
    TwoWordsShape(foo, bar);
    KeepConcat("#", foo + (" " + ("#" + (bar + " "))), p);
    KeepConcat(foo, " " + ("#" + (bar + " ")), p);
    KeepConcat(" ", "#" + (bar + " "), p);
    KeepConcat("#", bar + " ", p);
    KeepConcat(bar, " ", p);
    KeepAll(foo, p);
    KeepAll(bar, p);
    assert Keep(" ", p) == [];
    assert Keep("#", p) == "#";
  }

  lemma TwoWordsShape(foo: string, bar: string)
    ensures "#" + foo + " #" + bar + " " == "#" + (foo + (" " + ("#" + (bar + " "))))
    ensures "#" + (foo + ([] + ("#" + (bar + [])))) == "#" + foo + "#" + bar
  {
  }
}

=== FILE: crawl_loop.dfy ===
/**
 The per-tag crawl loop of `crawlTag`: walk the tag's feed newest first,
 skip items that fail to load or normalise, stop at the first post at or
 before the watermark, and stop early once a positive count goal is met.
 */
module CrawlLoop {
  import opened Wrappers
  import opened Posts

  /**
   One item of a tag's feed: either the feed library's `get_post_info`
   raised `KeyError` or `AttributeError`, or it returned a raw post.
   */
  datatype FeedItem = LookupFailed | Fetched(post: RawPost)

  /** Why the loop ended: the feed ran out, the watermark was reached, or the goal was met. */
  datatype Stop = Exhausted | WatermarkReached | GoalReached

  datatype CrawlOutcome = CrawlOutcome(rows: seq<CrawledRow>, stop: Stop)

  /** The row an item normalises to, if any. */
  function Normalise(item: FeedItem): Option<CrawledRow>
  {
    match item
    case LookupFailed => None
    case Fetched(post) => MakeRowDict(post)
  }

  /** What each item of the feed normalises to, in feed order. */
  function Attempted(feed: seq<FeedItem>): (items: seq<Option<CrawledRow>>)
    ensures |items| == |feed|
    ensures forall i :: 0 <= i < |feed| ==> items[i] == Normalise(feed[i])
  {
    seq(|feed|, i requires 0 <= i < |feed| => Normalise(feed[i]))
  }

  lemma AttemptedConcat(a: seq<FeedItem>, b: seq<FeedItem>)
    ensures Attempted(a + b) == Attempted(a) + Attempted(b)
  {
    var l, la, lb := Attempted(a + b), Attempted(a), Attempted(b);
    forall i | 0 <= i < |l| ensures l[i] == (la + lb)[i] {
      if i < |a| {
        assert (a + b)[i] == a[i];
      } else {
        assert (a + b)[i] == b[i - |a|];
      }
    }
  }

  /** The present values, in order. */
  function Somes<T>(items: seq<Option<T>>): (values: seq<T>)
    ensures |values| <= |items|
    decreases |items|
  {
    if items == [] then []
    else (if items[0].Some? then [items[0].value] else []) + Somes(items[1..])
  }

  lemma {:induction false} SomesConcat<T>(a: seq<Option<T>>, b: seq<Option<T>>)
    ensures Somes(a + b) == Somes(a) + Somes(b)
    decreases |a|
  {
    if a == [] {
      assert a + b == b;
    } else {
      assert (a + b)[0] == a[0];
      assert (a + b)[1..] == a[1..] + b;
      SomesConcat(a[1..], b);
    }
  }

  /** The rows of the items that load and normalise, in feed order. */
  function Normalised(feed: seq<FeedItem>): (rows: seq<CrawledRow>)
    ensures |rows| <= |feed|
  {
    Somes(Attempted(feed))
  }

  lemma NormalisedConcat(a: seq<FeedItem>, b: seq<FeedItem>)
    ensures Normalised(a + b) == Normalised(a) + Normalised(b)
  {
    AttemptedConcat(a, b);
    SomesConcat(Attempted(a), Attempted(b));
  }

  /**
   The loop of `crawlTag` over the normalised items, from the point where
   `count` rows have been appended: the rows it collects are a prefix of
   the present rows, every one of them newer than the watermark.
   */
  function CrawlFrom(items: seq<Option<CrawledRow>>, watermark: int, goal: int, count: nat): (r: CrawlOutcome)
    requires goal < 1 || count < goal
    ensures r.rows <= Somes(items)
    ensures forall k :: 0 <= k < |r.rows| ==> r.rows[k].createdTime > watermark
    decreases |items|
  {
    if items == [] then CrawlOutcome([], Exhausted)
    else
      match items[0]
      case None =>
        assert Somes(items) == Somes(items[1..]);
        CrawlFrom(items[1..], watermark, goal, count)
      case Some(row) =>
        assert Somes(items) == [row] + Somes(items[1..]);
        if row.createdTime <= watermark then CrawlOutcome([], WatermarkReached)
        else if count + 1 == goal then CrawlOutcome([row], GoalReached)
        else
          var rest := CrawlFrom(items[1..], watermark, goal, count + 1);
          CrawlOutcome([row] + rest.rows, rest.stop)
  }

  /**
   Why the loop stopped: having taken every row, or just before the first
   row at or before the watermark.
   */
  lemma {:induction false} CrawlFromStop(items: seq<Option<CrawledRow>>, watermark: int, goal: int, count: nat)
    requires goal < 1 || count < goal
    ensures var r := CrawlFrom(items, watermark, goal, count);
      && (r.stop == Exhausted ==> r.rows == Somes(items))
      && (r.stop == WatermarkReached ==>
        |r.rows| < |Somes(items)| && Somes(items)[|r.rows|].createdTime <= watermark)
    decreases |items|
  {
    if items != [] {
      match items[0]
      case None =>
        assert Somes(items) == Somes(items[1..]);
        CrawlFromStop(items[1..], watermark, goal, count);
      case Some(row) =>
        assert Somes(items) == [row] + Somes(items[1..]);
        if row.createdTime > watermark && count + 1 != goal {
          CrawlFromStop(items[1..], watermark, goal, count + 1);
        }
    }
  }

  /** A positive goal is never overshot, and the loop stops for it exactly when it is met. */
  lemma {:induction false} CrawlFromGoal(items: seq<Option<CrawledRow>>, watermark: int, goal: int, count: nat)
    requires goal < 1 || count < goal
    ensures var r := CrawlFrom(items, watermark, goal, count);
      && (r.stop == GoalReached <==> goal >= 1 && count + |r.rows| == goal)
      && (goal >= 1 ==> count + |r.rows| <= goal)
    decreases |items|
  {
    if items != [] {
      match items[0]
      case None =>
        CrawlFromGoal(items[1..], watermark, goal, count);
      case Some(row) =>
        if row.createdTime > watermark && count + 1 != goal {
          CrawlFromGoal(items[1..], watermark, goal, count + 1);
        }
    }
  }

  /**
   `crawlTag(tag, goal)` once the watermark has been read: the rows it
   returns and why it stopped. A goal below 1 (the default 0) never stops
   the loop, since the count is at least 1 after each append.
   */
  function CrawlTag(feed: seq<FeedItem>, watermark: int, goal: int): (r: CrawlOutcome)
    ensures r.rows <= Normalised(feed)
    ensures forall k :: 0 <= k < |r.rows| ==> r.rows[k].createdTime > watermark
    ensures r.stop == Exhausted ==> r.rows == Normalised(feed)
    ensures r.stop == WatermarkReached ==>
      |r.rows| < |Normalised(feed)| && Normalised(feed)[|r.rows|].createdTime <= watermark
    ensures r.stop == GoalReached <==> goal >= 1 && |r.rows| == goal
    ensures goal >= 1 ==> |r.rows| <= goal
  {
    CrawlFromStop(Attempted(feed), watermark, goal, 0);
    CrawlFromGoal(Attempted(feed), watermark, goal, 0);
    CrawlFrom(Attempted(feed), watermark, goal, 0)
  }

  /** The facts `CrawlTag` promises about an outcome, against the normalised rows. */
  ghost predicate Describes(r: CrawlOutcome, rows: seq<CrawledRow>, watermark: int, goal: int)
  {
    && r.rows <= rows
    && (forall k :: 0 <= k < |r.rows| ==> r.rows[k].createdTime > watermark)
    && (r.stop == Exhausted ==> r.rows == rows)
    && (r.stop == WatermarkReached ==> |r.rows| < |rows| && rows[|r.rows|].createdTime <= watermark)
    && (r.stop == GoalReached <==> goal >= 1 && |r.rows| == goal)
    && (goal >= 1 ==> |r.rows| <= goal)
  }

  /** At most one outcome fits those facts. */
  lemma DescribesUnique(r1: CrawlOutcome, r2: CrawlOutcome, rows: seq<CrawledRow>, watermark: int, goal: int)
    requires Describes(r1, rows, watermark, goal) && Describes(r2, rows, watermark, goal)
    ensures r1 == r2
  {
    assert r1.rows == rows[..|r1.rows|] && r2.rows == rows[..|r2.rows|];
  }

  /**
   Items that fail to load or normalise never influence the loop: the
   outcome depends on the feed only through its normalised rows.
   */
  lemma CrawlSeesOnlyNormalisedRows(feed1: seq<FeedItem>, feed2: seq<FeedItem>, watermark: int, goal: int)
    requires Normalised(feed1) == Normalised(feed2)
    ensures CrawlTag(feed1, watermark, goal) == CrawlTag(feed2, watermark, goal)
  {
    DescribesUnique(CrawlTag(feed1, watermark, goal), CrawlTag(feed2, watermark, goal), Normalised(feed1), watermark, goal);
  }

  /** Dropping a skipped item anywhere in the feed changes nothing. */
  lemma SkippedItemDoesNotStop(before: seq<FeedItem>, item: FeedItem, after: seq<FeedItem>, watermark: int, goal: int)
    requires Normalise(item).None?
    ensures CrawlTag(before + [item] + after, watermark, goal) == CrawlTag(before + after, watermark, goal)
  {
    NormalisedConcat(before + [item], after);
    NormalisedConcat(before, [item]);
    NormalisedConcat(before, after);
    assert Attempted([item])[0] == None;
    assert Normalised([item]) == [];
    CrawlSeesOnlyNormalisedRows(before + [item] + after, before + after, watermark, goal);
  }

  /** The rows newer than the watermark, in order. */
  function NewerThan(rows: seq<CrawledRow>, watermark: int): (r: seq<CrawledRow>)
    decreases |rows|
  {
    if rows == [] then []
    else (if rows[0].createdTime > watermark then [rows[0]] else []) + NewerThan(rows[1..], watermark)
  }

  ghost predicate StrictlyDecreasing(rows: seq<CrawledRow>)
  {
    forall i, j :: 0 <= i < j < |rows| ==> rows[i].createdTime > rows[j].createdTime
  }

  /**
   On a feed whose normalised posts come strictly newest first, the
   default (goal 0) crawl returns exactly the posts newer than the
   watermark, in feed order.
   */
  lemma DecreasingFeedGivesNewerPosts(feed: seq<FeedItem>, watermark: int)
    requires StrictlyDecreasing(Normalised(feed))
    ensures CrawlTag(feed, watermark, 0).rows == NewerThan(Normalised(feed), watermark)
  {
    var rows := Normalised(feed);
    var r := CrawlTag(feed, watermark, 0);
    var n := |r.rows|;
    assert rows == r.rows + rows[n..];
    if r.stop == WatermarkReached {
      forall k | n <= k < |rows| ensures rows[k].createdTime <= watermark {
        assert k == n || rows[n].createdTime > rows[k].createdTime;
      }
    }
    NewerThanSplit(r.rows, rows[n..], watermark);
  }

  /** All-newer rows followed by none-newer rows: `NewerThan` keeps exactly the first part. */
  lemma {:induction false} NewerThanSplit(newer: seq<CrawledRow>, older: seq<CrawledRow>, watermark: int)
    requires forall k :: 0 <= k < |newer| ==> newer[k].createdTime > watermark
    requires forall k :: 0 <= k < |older| ==> older[k].createdTime <= watermark
    ensures NewerThan(newer + older, watermark) == newer
    decreases |newer| + |older|
  {
    if newer != [] {
      assert (newer + older)[0] == newer[0];
      assert (newer + older)[1..] == newer[1..] + older;
      NewerThanSplit(newer[1..], older, watermark);
    } else if older != [] {
      assert newer + older == older;
      assert older[1..] == [] + older[1..];
      NewerThanSplit([], older[1..], watermark);
    }
  }
}

=== FILE: decimal.dfy ===
/**
 Decimal text of integers: Python's `str(int)`, and the grammar a watermark
 is read with (an optional sign followed by decimal digits).
 */
module Decimal {
  import opened Wrappers

  predicate IsDigit(c: char)
  {
    '0' <= c <= '9'
  }

  /** Every character is a decimal digit (the empty text included). */
  predicate AllDigits(s: string)
  {
    forall i :: 0 <= i < |s| ==> IsDigit(s[i])
  }

  /** A non-empty run of decimal digits. */
  predicate IsNumeral(s: string)
  {
    |s| > 0 && AllDigits(s)
  }

  /** An optional sign followed by a non-empty run of decimal digits. */
  predicate IsInteger(s: string)
  {
    IsNumeral(s) || (|s| > 0 && (s[0] == '-' || s[0] == '+') && IsNumeral(s[1..]))
  }

  function DigitChar(d: nat): (c: char)
    requires d < 10
    ensures IsDigit(c) && DigitValue(c) == d
  {
    (('0' as int) + d) as char
  }

  function DigitValue(c: char): nat
    requires IsDigit(c)
  {
    (c as int) - ('0' as int)
  }

  /** Digits of `n`, most significant first, without leading zeros. */
  function ShowNat(n: nat): (s: string)
    ensures IsNumeral(s)
    ensures |s| > 1 ==> s[0] != '0'
    decreases n
  {
    if n < 10 then [DigitChar(n)] else ShowNat(n / 10) + [DigitChar(n % 10)]
  }

  /** Value of a run of digits, most significant first; the empty run is 0. */
  function ParseDigits(s: string): nat
    requires AllDigits(s)
    decreases |s|
  {
    if |s| == 0 then 0
    else
      10 * ParseDigits(s[..|s| - 1]) + DigitValue(s[|s| - 1])
  }

  lemma {:induction false} ParseShowNat(n: nat)
    ensures ParseDigits(ShowNat(n)) == n
    decreases n
  {
    var s := ShowNat(n);
    if n >= 10 {
      assert s[..|s| - 1] == ShowNat(n / 10);
      ParseShowNat(n / 10);
    }
  }

  /** Python's `str(n)` for an integer. */
  function Show(n: int): string
  {
    if n < 0 then "-" + ShowNat(-n) else ShowNat(n)
  }

  /** The texts read as a watermark: an optional sign, then decimal digits (a subset of what `float(text)` accepts). */
  function Parse(s: string): Option<int>
  {
    if |s| > 0 && s[0] == '-' && IsNumeral(s[1..]) then Some(-(ParseDigits(s[1..]) as int))
    else if |s| > 0 && s[0] == '+' && IsNumeral(s[1..]) then Some(ParseDigits(s[1..]))
    else if IsNumeral(s) then Some(ParseDigits(s))
    else None
  }

  /** `Parse` accepts exactly the signed numerals. */
  lemma ParseAccepts(s: string)
    ensures Parse(s).Some? <==> IsInteger(s)
  {
  }

  /**
   A character that is not a digit, anywhere but in front, or a first
   character that is neither a digit nor a sign, makes the text unparsable.
   */
  lemma StrayCharRejected(s: string, i: nat)
    requires i < |s| && !IsDigit(s[i])
    requires i > 0 || (s[i] != '-' && s[i] != '+')
    ensures Parse(s).None?
  {
    if i > 0 {
      assert s[1..][i - 1] == s[i];
    }
    ParseAccepts(s);
  }

  /** Reading back the decimal text of an integer gives the integer. */
  lemma ShowParse(n: int)
    ensures Parse(Show(n)) == Some(n)
    ensures |Show(n)| > 0
    ensures IsDigit(Show(n)[|Show(n)| - 1])
    ensures Show(n)[0] == '-' || IsDigit(Show(n)[0])
  {
    if n < 0 {
      assert Show(n)[1..] == ShowNat(-n);
      ParseShowNat(-n);
    } else {
      ParseShowNat(n);
    }
  }
}

=== FILE: image_stage.dfy ===
/**
 `downloadImage`: fetch the image of every row of the working table, then
 split the table into the rows whose image arrived (kept), the rows whose
 image is gone for good (dropped) and the rows to retry on the next run
 (deferred). The split goes through pandas: the loop collects one label
 per row into three lists, `filter(items=...)` selects the deferred rows
 and `drop(...)` removes the missing and deferred ones.
 */
module ImageStage {
  import opened Wrappers
  import opened Posts

  /** What fetching one image gave: a reset connection or an HTTP status. */
  datatype Fetch = ConnReset | Status(code: int)

  /** Where a row goes once its image has been fetched. */
  datatype Fate = Downloaded | Missing | Deferred

  /** 200 downloads the image, 404 drops the row, anything else defers it. */
  function FateOf(f: Fetch): Fate
  {
    match f
    case ConnReset => Deferred
    case Status(code) => if code == 200 then Downloaded else if code == 404 then Missing else Deferred
  }

  /**
   A row label as the loop records it. The table's labels are its
   positions 0, 1, ...; `IndexMethod` is what `row.index` evaluates to on
   the named tuple `itertuples` yields: the tuple's `index` method, which
   is never a label of the table.
   */
  datatype Label = At(pos: nat) | IndexMethod

  function LabelOf(i: nat, asWritten: bool): Label
  {
    if asWritten then IndexMethod else At(i)
  }

  /**
   The label list the loop builds for one fate, in row order. Recording by
   position, a label is listed exactly when the row at that position has
   that fate; recording `row.index`, the list is empty exactly when no row
   has that fate.
   */
  function Labels(fetches: seq<Fetch>, fate: Fate, asWritten: bool): (labels: seq<Label>)
    ensures !asWritten ==> forall l :: l in labels <==> l.At? && l.pos < |fetches| && FateOf(fetches[l.pos]) == fate
    ensures asWritten ==> forall l :: l in labels ==> l == IndexMethod
    ensures asWritten ==> (labels == [] <==> forall i :: 0 <= i < |fetches| ==> FateOf(fetches[i]) != fate)
    decreases |fetches|
  {
    if fetches == [] then []
    else
      var n := |fetches| - 1;
      var before := Labels(fetches[..n], fate, asWritten);
      assert forall i :: 0 <= i < n ==> fetches[..n][i] == fetches[i];
      before + (if FateOf(fetches[n]) == fate then [LabelOf(n, asWritten)] else [])
  }

  /**
   `DataFrame.filter(axis=0, items=...)`: the rows whose label is listed,
   in the order of the list; a listed value that is not a label is skipped.
   */
  function FilterItems<T>(xs: seq<T>, items: seq<Label>): (r: seq<T>)
    ensures |r| <= |items|
    ensures forall y :: y in r ==> y in xs
    decreases |items|
  {
    if items == [] then []
    else
      var n := |items| - 1;
      FilterItems(xs, items[..n]) + (if items[n].At? && items[n].pos < |xs| then [xs[items[n].pos]] else [])
  }

  lemma {:induction false} FilterItemsConcat<T>(xs: seq<T>, a: seq<Label>, b: seq<Label>)
    ensures FilterItems(xs, a + b) == FilterItems(xs, a) + FilterItems(xs, b)
    decreases |b|
  {
    if b == [] {
      assert a + b == a;
    } else {
      var n := |b| - 1;
      assert (a + b)[..|a + b| - 1] == a + b[..n];
      FilterItemsConcat(xs, a, b[..n]);
    }
  }

  /** The rows at positions that are not listed, in table order. */
  function OmitUpTo<T>(xs: seq<T>, labels: seq<Label>, n: nat): (r: seq<T>)
    requires n <= |xs|
    ensures |r| <= n
    decreases n
  {
    if n == 0 then []
    else OmitUpTo(xs, labels, n - 1) + (if At(n - 1) in labels then [] else [xs[n - 1]])
  }

  /**
   `DataFrame.drop(labels)`: `None` (pandas raises `KeyError`) when some
   listed value is not a label of the table, otherwise the rows whose label
   is not listed.
   */
  function Drop<T>(xs: seq<T>, labels: seq<Label>): (r: Option<seq<T>>)
    ensures r.None? <==> exists l :: l in labels && !(l.At? && l.pos < |xs|)
    ensures r.Some? ==> |r.value| <= |xs|
  {
    if forall l :: l in labels ==> l.At? && l.pos < |xs| then Some(OmitUpTo(xs, labels, |xs|)) else None
  }

  /** The kept table (index reset) and the table to retry, which `downloadImage` returns. */
  datatype Settled<T> = Settled(kept: seq<T>, deferred: seq<T>)

  /** The split `downloadImage` performs once every row's image has been fetched. */
  function Settle<T>(xs: seq<T>, fetches: seq<Fetch>, asWritten: bool): Option<Settled<T>>
  {
    var deferred := FilterItems(xs, Labels(fetches, Deferred, asWritten));
    match Drop(xs, Labels(fetches, Missing, asWritten) + Labels(fetches, Deferred, asWritten))
    case None => None
    case Some(kept) => Some(Settled(kept, deferred))
  }

  /** Reference split: the rows, in order, whose fetch has the given fate. */
  function WithFate<T>(xs: seq<T>, fetches: seq<Fetch>, fate: Fate): (r: seq<T>)
    requires |xs| == |fetches|
    ensures |r| <= |xs|
    decreases |xs|
  {
    if xs == [] then []
    else
      var n := |xs| - 1;
      WithFate(xs[..n], fetches[..n], fate) + (if FateOf(fetches[n]) == fate then [xs[n]] else [])
  }

  lemma {:induction false} FilterByPosition<T>(xs: seq<T>, fetches: seq<Fetch>, fate: Fate, n: nat)
    requires |xs| == |fetches| && n <= |xs|
    ensures FilterItems(xs, Labels(fetches[..n], fate, false)) == WithFate(xs[..n], fetches[..n], fate)
    decreases n
  {
    if n > 0 {
      var m := n - 1;
      assert fetches[..n][..m] == fetches[..m];
      assert xs[..n][..m] == xs[..m];
      assert fetches[..n][m] == fetches[m];
      FilterByPosition(xs, fetches, fate, m);
      var tail: seq<Label> := if FateOf(fetches[m]) == fate then [At(m)] else [];
      FilterItemsConcat(xs, Labels(fetches[..m], fate, false), tail);
      assert FilterItems(xs, tail) == (if FateOf(fetches[m]) == fate then [xs[m]] else []) by {
        if tail != [] {
          assert tail[..0] == [];
        }
      }
    }
  }

  lemma {:induction false} OmitByPosition<T>(xs: seq<T>, fetches: seq<Fetch>, n: nat)
    requires |xs| == |fetches| && n <= |xs|
    ensures OmitUpTo(xs, Labels(fetches, Missing, false) + Labels(fetches, Deferred, false), n)
      == WithFate(xs[..n], fetches[..n], Downloaded)
    decreases n
  {
    if n > 0 {
      var m := n - 1;
      assert fetches[..n][..m] == fetches[..m];
      assert xs[..n][..m] == xs[..m];
      assert fetches[..n][m] == fetches[m];
      OmitByPosition(xs, fetches, m);
      var dropped := Labels(fetches, Missing, false) + Labels(fetches, Deferred, false);
      assert At(m) in dropped <==> FateOf(fetches[m]) != Downloaded by {
        assert At(m) in dropped <==> At(m) in Labels(fetches, Missing, false) || At(m) in Labels(fetches, Deferred, false);
      }
    }
  }

  /**
   The split as `downloadImage` should perform it, labelling each row by
   its position: the kept rows are exactly those whose image arrived and
   the deferred rows exactly those to retry, both in table order.
   */
  function Download<T>(xs: seq<T>, fetches: seq<Fetch>): (r: Settled<T>)
    requires |xs| == |fetches|
    ensures r.kept == WithFate(xs, fetches, Downloaded)
    ensures r.deferred == WithFate(xs, fetches, Deferred)
  {
    FilterByPosition(xs, fetches, Deferred, |xs|);
    OmitByPosition(xs, fetches, |xs|);
    assert xs[..|xs|] == xs && fetches[..|fetches|] == fetches;
    var s := Settle(xs, fetches, false);
    assert s.Some?;
    s.value
  }

  lemma {:induction false} FilterNothing<T>(xs: seq<T>, items: seq<Label>)
    requires forall l :: l in items ==> l == IndexMethod
    ensures FilterItems(xs, items) == []
    decreases |items|
  {
    if items != [] {
      var n := |items| - 1;
      assert items[n] in items;
      assert forall l :: l in items[..n] ==> l in items;
      FilterNothing(xs, items[..n]);
    }
  }

  lemma {:induction false} OmitNothing<T>(xs: seq<T>, n: nat)
    requires n <= |xs|
    ensures OmitUpTo(xs, [], n) == xs[..n]
    decreases n
  {
    if n > 0 {
      OmitNothing(xs, n - 1);
      assert xs[..n] == xs[..n - 1] + [xs[n - 1]];
    }
  }

  /**
   The split as `downloadImage` performs it, recording `row.index`: when
   every image arrived the table is kept whole and nothing is deferred;
   otherwise `drop` is handed values that are not labels and raises,
   which aborts the run.
   */
  function DownloadAsWritten<T>(xs: seq<T>, fetches: seq<Fetch>): (r: Option<Settled<T>>)
    requires |xs| == |fetches|
    ensures r.Some? <==> forall i :: 0 <= i < |fetches| ==> FateOf(fetches[i]) == Downloaded
    ensures r.Some? ==> r.value == Settled(xs, [])
  {
    SettleAsWritten(xs, fetches);
    Settle(xs, fetches, true)
  }

  lemma SettleAsWritten<T>(xs: seq<T>, fetches: seq<Fetch>)
    requires |xs| == |fetches|
    ensures Settle(xs, fetches, true).Some? <==> forall i :: 0 <= i < |fetches| ==> FateOf(fetches[i]) == Downloaded
    ensures Settle(xs, fetches, true).Some? ==> Settle(xs, fetches, true).value == Settled(xs, [])
  {
    var dropped := Labels(fetches, Missing, true) + Labels(fetches, Deferred, true);
    FilterNothing(xs, Labels(fetches, Deferred, true));
    if dropped == [] {
      OmitNothing(xs, |xs|);
      assert xs[..|xs|] == xs;
    } else {
      assert dropped[0] in dropped;
    }
  }

  lemma AllDownloaded<T>(xs: seq<T>, fetches: seq<Fetch>)
    requires |xs| == |fetches|
    requires forall i :: 0 <= i < |fetches| ==> FateOf(fetches[i]) == Downloaded
    ensures WithFate(xs, fetches, Downloaded) == xs
    ensures WithFate(xs, fetches, Deferred) == []
  {
    AllKept(xs, fetches);
    NoneOther(xs, fetches, Deferred);
  }

  lemma {:induction false} AllKept<T>(xs: seq<T>, fetches: seq<Fetch>)
    requires |xs| == |fetches|
    requires forall i :: 0 <= i < |fetches| ==> FateOf(fetches[i]) == Downloaded
    ensures WithFate(xs, fetches, Downloaded) == xs
    decreases |xs|
  {
    if xs != [] {
      var n := |xs| - 1;
      assert forall i :: 0 <= i < n ==> fetches[..n][i] == fetches[i];
      AllKept(xs[..n], fetches[..n]);
      assert xs[..n] + [xs[n]] == xs;
    }
  }

  lemma {:induction false} NoneOther<T>(xs: seq<T>, fetches: seq<Fetch>, fate: Fate)
    requires |xs| == |fetches| && fate != Downloaded
    requires forall i :: 0 <= i < |fetches| ==> FateOf(fetches[i]) == Downloaded
    ensures WithFate(xs, fetches, fate) == []
    decreases |xs|
  {
    if xs != [] {
      var n := |xs| - 1;
      assert forall i :: 0 <= i < n ==> fetches[..n][i] == fetches[i];
      NoneOther(xs[..n], fetches[..n], fate);
    }
  }

  /** When every image arrives, the table as written splits just as the corrected one does. */
  lemma AsWrittenAgreesWhenAllArrive<T>(xs: seq<T>, fetches: seq<Fetch>)
    requires |xs| == |fetches|
    requires forall i :: 0 <= i < |fetches| ==> FateOf(fetches[i]) == Downloaded
    ensures DownloadAsWritten(xs, fetches) == Some(Download(xs, fetches))
  {
    AllDownloaded(xs, fetches);
  }

  /** A single 404 is enough: as written the split aborts, while by position that row is simply dropped. */
  lemma SingleMissingImage<T>(x: T)
    ensures DownloadAsWritten([x], [Status(404)]).None?
    ensures Download([x], [Status(404)]) == Settled([], [])
  {
    assert FateOf([Status(404)][0]) != Downloaded;
    assert [x][..0] == [];
  }

  /**
   Every row lands in exactly one of the three outcomes: the kept, the
   dropped and the deferred rows together are the table's rows.
   */
  lemma FatesPartition<T>(xs: seq<T>, fetches: seq<Fetch>)
    requires |xs| == |fetches|
    ensures multiset(WithFate(xs, fetches, Downloaded)) + multiset(WithFate(xs, fetches, Missing))
      + multiset(WithFate(xs, fetches, Deferred)) == multiset(xs)
    ensures |WithFate(xs, fetches, Downloaded)| + |WithFate(xs, fetches, Missing)|
      + |WithFate(xs, fetches, Deferred)| == |xs|
  {
    FateMultisets(xs, fetches);
    assert |multiset(xs)| == |xs|;
  }

  lemma {:induction false} FateMultisets<T>(xs: seq<T>, fetches: seq<Fetch>)
    requires |xs| == |fetches|
    ensures multiset(WithFate(xs, fetches, Downloaded)) + multiset(WithFate(xs, fetches, Missing))
      + multiset(WithFate(xs, fetches, Deferred)) == multiset(xs)
    decreases |xs|
  {
    if xs != [] {
      var n := |xs| - 1;
      FateMultisets(xs[..n], fetches[..n]);
      assert multiset(xs) == multiset(xs[..n]) + multiset{xs[n]} by {
        assert xs == xs[..n] + [xs[n]];
      }
      FateStep(xs, fetches, Downloaded);
      FateStep(xs, fetches, Missing);
      FateStep(xs, fetches, Deferred);
      AddOne(multiset(WithFate(xs[..n], fetches[..n], Downloaded)), multiset(WithFate(xs[..n], fetches[..n], Missing)),
        multiset(WithFate(xs[..n], fetches[..n], Deferred)), xs[n], FateOf(fetches[n]));
    }
  }

  /** Adding one element to the part of its fate adds it to the sum of the three parts. */
  lemma AddOne<T>(d: multiset<T>, m: multiset<T>, f: multiset<T>, x: T, fate: Fate)
    ensures (d + (if fate == Downloaded then multiset{x} else multiset{}))
      + (m + (if fate == Missing then multiset{x} else multiset{}))
      + (f + (if fate == Deferred then multiset{x} else multiset{})) == d + m + f + multiset{x}
  {
  }

  lemma FateStep<T>(xs: seq<T>, fetches: seq<Fetch>, fate: Fate)
    requires |xs| == |fetches| && xs != []
    ensures multiset(WithFate(xs, fetches, fate)) == multiset(WithFate(xs[..|xs| - 1], fetches[..|xs| - 1], fate))
      + (if FateOf(fetches[|xs| - 1]) == fate then multiset{xs[|xs| - 1]} else multiset{})
  {
  }

  /** A row whose fetch has a fate is among the rows with that fate. */
  lemma {:induction false} WithFateHas<T>(xs: seq<T>, fetches: seq<Fetch>, fate: Fate, i: nat)
    requires |xs| == |fetches| && i < |xs| && FateOf(fetches[i]) == fate
    ensures xs[i] in WithFate(xs, fetches, fate)
    decreases |xs|
  {
    var n := |xs| - 1;
    if i < n {
      assert xs[..n][i] == xs[i] && fetches[..n][i] == fetches[i];
      WithFateHas(xs[..n], fetches[..n], fate, i);
    }
  }

  /** Python's `url[-3:]`: the last three characters, or the whole text when it is shorter. */
  function Extension(url: string): (ext: string)
    ensures |ext| == if |url| < 3 then |url| else 3
    ensures ext == url[|url| - |ext|..]
  {
    if |url| < 3 then url else url[|url| - 3..]
  }

  /** The file name a downloaded image is saved under in the temporary image directory. */
  function ImageFileName(row: TableRow): (name: string)
    ensures |name| == |row.postid| + 1 + |Extension(row.imgUrl)|
    ensures name[..|row.postid|] == row.postid && name[|row.postid|] == '.'
    ensures name[|row.postid| + 1..] == Extension(row.imgUrl)
  {
    row.postid + "." + Extension(row.imgUrl)
  }

  /**
   Two rows' images are saved under the same name only when their post ids
   agree (post ids are numerals, so they hold no `.`) and so do the last
   three characters of their URLs.
   */
  lemma SameFileSamePost(a: TableRow, b: TableRow)
    requires forall i :: 0 <= i < |a.postid| ==> a.postid[i] != '.'
    requires forall i :: 0 <= i < |b.postid| ==> b.postid[i] != '.'
    requires ImageFileName(a) == ImageFileName(b)
    ensures a.postid == b.postid && Extension(a.imgUrl) == Extension(b.imgUrl)
  {
  }

  /** The names of the files the downloaded rows are saved under. */
  function ImageFileNames(rows: seq<TableRow>): (names: set<string>)
    ensures forall k :: 0 <= k < |rows| ==> ImageFileName(rows[k]) in names
    ensures forall name :: name in names ==> exists k :: 0 <= k < |rows| && name == ImageFileName(rows[k])
  {
    set k | 0 <= k < |rows| :: ImageFileName(rows[k])
  }
}

=== FILE: posts.dfy ===
/**
 Post normalisation: the raw post record the feed library returns, the
 seven-column row of the crawler's table, `makeURL` and `makeRowDict`.
 */
module Posts {
  import opened Wrappers
  import opened Captions

  /**
   The fields of a raw post record that `makeRowDict` reads. `captionTexts`
   holds the `node.text` of each entry of `edge_media_to_caption.edges`,
   in order; every other key is present by construction.
   */
  datatype RawPost = RawPost(
    id: string,
    ownerUsername: string,
    ownerId: string,
    date: int,
    code: string,
    displaySrc: string,
    captionTexts: seq<string>)

  /**
   A row of the table with the columns of `HEADER_ARRAY`: postid, username,
   userid, created_time, code (the permalink), tags and img_url. The tags
   column holds the raw `findTag` string until `filter_tags` is applied to
   it, and the list of tag words afterwards.
   */
  datatype Row<Tags> = Row(
    postid: string,
    username: string,
    userid: string,
    createdTime: int,
    code: string,
    tags: Tags,
    imgUrl: string)
  {
    /** The same row with its tags column replaced. */
    function WithTags<T>(newTags: T): Row<T>
    {
      Row(postid, username, userid, createdTime, code, newTags, imgUrl)
    }
  }

  /** A row as `makeRowDict` builds it: tags still the raw capture. */
  type CrawledRow = Row<string>

  /** A row as the table holds it once `filter_tags` has run: tags as words. */
  type TableRow = Row<seq<string>>

  const PermalinkPrefix: string := "https://www.instagram.com/p/"

  /** `makeURL(code)`: the post's permalink. */
  function MakeURL(code: string): string
  {
    PermalinkPrefix + code + "/"
  }

  /** The short code inside a permalink, if the text is one. */
  function CodeOfURL(url: string): Option<string>
  {
    if |url| > |PermalinkPrefix| && url[..|PermalinkPrefix|] == PermalinkPrefix && url[|url| - 1] == '/'
    then Some(url[|PermalinkPrefix|..|url| - 1])
    else None
  }

  /** `makeURL` loses nothing: the code can be read back from the permalink, and only from it. */
  lemma MakeURLRoundTrip(code: string, url: string)
    ensures CodeOfURL(MakeURL(code)) == Some(code)
    ensures CodeOfURL(url) == Some(code) ==> MakeURL(code) == url
  {
    var u := MakeURL(code);
    assert u[..|PermalinkPrefix|] == PermalinkPrefix;
    assert u[|PermalinkPrefix|..|u| - 1] == code;
    if CodeOfURL(url) == Some(code) {
      assert url == url[..|PermalinkPrefix|] + url[|PermalinkPrefix|..|url| - 1] + [url[|url| - 1]];
    }
  }

  /**
   `makeRowDict(postDict)`: `None` (the source's `False`) when the caption
   list is empty or its first caption holds no `#`; otherwise the row copying
   the post's fields, with the permalink and the raw hashtag capture.
   */
  function MakeRowDict(post: RawPost): (row: Option<CrawledRow>)
    ensures row.None? <==> |post.captionTexts| == 0 || FindTag(post.captionTexts[0]) == []
    ensures row.None? <==> |post.captionTexts| == 0 || '#' !in post.captionTexts[0]
    ensures row.Some? ==>
      && row.value.postid == post.id
      && row.value.username == post.ownerUsername
      && row.value.userid == post.ownerId
      && row.value.createdTime == post.date
      && CodeOfURL(row.value.code) == Some(post.code)
      && row.value.tags == FindTag(post.captionTexts[0])
      && row.value.tags[0] == '#'
      && row.value.imgUrl == post.displaySrc
  {
    if |post.captionTexts| == 0 then None
    else
      var tagAll := FindTag(post.captionTexts[0]);
      if tagAll == [] then None
      else
        MakeURLRoundTrip(post.code, MakeURL(post.code));
        Some(Row(post.id, post.ownerUsername, post.ownerId, post.date, MakeURL(post.code), tagAll, post.displaySrc))
  }
}

=== FILE: py_strings.dfy ===
/**
 The Python `str` operations the crawler relies on, over `seq<char>`:
 `index`, `split`/`join` with a one-character separator, filtering by a
 character class, `lstrip(c)` and `strip()`.
 */
module PyStrings {

  /** Position of the first `c` in `s` (Python's `s.index(c)`). */
  function IndexOf(s: string, c: char): (i: nat)
    requires c in s
    ensures i < |s| && s[i] == c
    ensures forall k :: 0 <= k < i ==> s[k] != c
    decreases |s|
  {
    if s[0] == c then 0
    else
      assert s == [s[0]] + s[1..];
      1 + IndexOf(s[1..], c)
  }

  /** Any position holding the first `c` is the one `IndexOf` finds. */
  lemma IndexOfFirst(s: string, c: char, k: nat)
    requires k < |s| && s[k] == c && forall j :: 0 <= j < k ==> s[j] != c
    ensures IndexOf(s, c) == k
  {
  }

  /** `s` is what comes before position `i`, the character there, and what follows. */
  lemma SplitAround(s: string, i: nat)
    requires i < |s|
    ensures s == s[..i] + ([s[i]] + s[i + 1..])
  {
  }

  /** The characters of `s` that satisfy `p`, in order (`''.join(e for e in s if p(e))`). */
  function Keep(s: string, p: char -> bool): (r: string)
    ensures |r| <= |s|
    ensures forall i :: 0 <= i < |r| ==> p(r[i])
    decreases |s|
  {
    if s == [] then []
    else (if p(s[0]) then [s[0]] else []) + Keep(s[1..], p)
  }

  /** A single character is kept exactly when it satisfies `p`. */
  lemma KeepOne(c: char, p: char -> bool)
    ensures Keep([c], p) == if p(c) then [c] else []
  {
    assert [c][1..] == [];
  }

  /**
   Every character satisfying `p` is kept as often as it occurs, and every
   other character is dropped.
   */
  lemma {:induction false} KeepCounts(s: string, p: char -> bool)
    ensures forall c :: p(c) ==> multiset(Keep(s, p))[c] == multiset(s)[c]
    ensures forall c :: !p(c) ==> multiset(Keep(s, p))[c] == 0
    decreases |s|
  {
    if s != [] {
      KeepCounts(s[1..], p);
      assert s == [s[0]] + s[1..];
    }
  }

  /** Keeping by a predicate every character already satisfies changes nothing. */
  lemma {:induction false} KeepAll(s: string, p: char -> bool)
    requires forall i :: 0 <= i < |s| ==> p(s[i])
    ensures Keep(s, p) == s
    decreases |s|
  {
    if s != [] {
      KeepAll(s[1..], p);
    }
  }

  /** Filtering distributes over concatenation. */
  lemma {:induction false} KeepConcat(a: string, b: string, p: char -> bool)
    ensures Keep(a + b, p) == Keep(a, p) + Keep(b, p)
    decreases |a|
  {
    if a == [] {
      assert a + b == b;
    } else {
      assert (a + b)[0] == a[0];
      assert (a + b)[1..] == a[1..] + b;
      KeepConcat(a[1..], b, p);
    }
  }

  /** `sep.join(parts)` for a one-character separator. */
  function Join(parts: seq<string>, sep: char): string
    decreases |parts|
  {
    if |parts| == 0 then []
    else if |parts| == 1 then parts[0]
    else parts[0] + [sep] + Join(parts[1..], sep)
  }

  /**
   `s.split(sep)` for a one-character separator: never an empty list, no
   piece holds `sep`, and joining the pieces with `sep` gives `s` back.
   */
  function Split(s: string, sep: char): (parts: seq<string>)
    ensures |parts| >= 1
    ensures forall k :: 0 <= k < |parts| ==> sep !in parts[k]
    ensures Join(parts, sep) == s
    decreases |s|
  {
    if sep !in s then [s]
    else
      var i := IndexOf(s, sep);
      var rest := Split(s[i + 1..], sep);
      assert s == s[..i] + [sep] + s[i + 1..];
      assert ([s[..i]] + rest)[1..] == rest;
      [s[..i]] + rest
  }

  /** Every character of every piece satisfies a class all of `s` satisfies. */
  lemma {:induction false} SplitKeepsClass(s: string, sep: char, p: char -> bool)
    requires forall i :: 0 <= i < |s| ==> p(s[i])
    ensures forall k, i :: 0 <= k < |Split(s, sep)| && 0 <= i < |Split(s, sep)[k]| ==> p(Split(s, sep)[k][i])
    decreases |s|
  {
    if sep in s {
      var j := IndexOf(s, sep);
      var parts := Split(s, sep);
      var rest := Split(s[j + 1..], sep);
      assert parts == [s[..j]] + rest;
      SplitKeepsClass(s[j + 1..], sep, p);
      forall k, i | 0 <= k < |parts| && 0 <= i < |parts[k]| ensures p(parts[k][i]) {
        if k == 0 {
          assert parts[0][i] == s[i];
        } else {
          assert parts[k] == rest[k - 1];
        }
      }
    }
  }

  /** Splitting a join of separator-free pieces gives the pieces back. */
  lemma {:induction false} SplitJoin(parts: seq<string>, sep: char)
    requires |parts| >= 1
    requires forall k :: 0 <= k < |parts| ==> sep !in parts[k]
    ensures Split(Join(parts, sep), sep) == parts
    decreases |parts|
  {
    if |parts| > 1 {
      var head, rest := parts[0], Join(parts[1..], sep);
      var s := Join(parts, sep);
      JoinHead(parts, sep);
      assert forall j :: 0 <= j < |head| ==> s[j] == head[j] && head[j] in head;
      IndexOfFirst(s, sep, |head|);
      SplitAtFirst(s, sep, |head|);
      assert forall k :: 0 <= k < |parts[1..]| ==> parts[1..][k] == parts[k + 1];
      SplitJoin(parts[1..], sep);
      assert parts == [head] + parts[1..];
    } else {
      assert Join(parts, sep) == parts[0];
    }
  }

  lemma JoinHead(parts: seq<string>, sep: char)
    requires |parts| > 1
    ensures var s := Join(parts, sep);
      && s == parts[0] + [sep] + Join(parts[1..], sep)
      && |parts[0]| < |s| && s[..|parts[0]|] == parts[0] && s[|parts[0]|] == sep
      && s[|parts[0]| + 1..] == Join(parts[1..], sep)
  {
  }

  lemma SplitAtFirst(s: string, sep: char, i: nat)
    requires i < |s| && s[i] == sep && IndexOf(s, sep) == i
    ensures Split(s, sep) == [s[..i]] + Split(s[i + 1..], sep)
  {
  }

  /** `s.lstrip(...)` for the character class `p`. */
  function TrimStart(s: string, p: char -> bool): (r: string)
    ensures |r| <= |s| && r == s[|s| - |r|..]
    ensures forall k :: 0 <= k < |s| - |r| ==> p(s[k])
    ensures r == [] || !p(r[0])
    decreases |s|
  {
    if s != [] && p(s[0]) then TrimStart(s[1..], p) else s
  }

  /** `s.rstrip(...)` for the character class `p`. */
  function TrimEnd(s: string, p: char -> bool): (r: string)
    ensures |r| <= |s| && r == s[..|r|]
    ensures forall k :: |r| <= k < |s| ==> p(s[k])
    ensures r == [] || !p(r[|r| - 1])
    decreases |s|
  {
    if s != [] && p(s[|s| - 1]) then TrimEnd(s[..|s| - 1], p) else s
  }

  /** The ASCII characters Python's `str.isspace` accepts. */
  predicate IsSpace(c: char)
  {
    c == ' ' || 9 <= c as int <= 13 || 28 <= c as int <= 31
  }

  /** Python's `s.strip()` with no argument. */
  function Strip(s: string): string
  {
    TrimEnd(TrimStart(s, IsSpace), IsSpace)
  }

  lemma {:induction false} TrimStartPadded(pre: string, rest: string, p: char -> bool)
    requires forall k :: 0 <= k < |pre| ==> p(pre[k])
    ensures TrimStart(pre + rest, p) == TrimStart(rest, p)
    decreases |pre|
  {
    if pre != [] {
      assert (pre + rest)[0] == pre[0] && p(pre[0]);
      assert (pre + rest)[1..] == pre[1..] + rest;
      TrimStartPadded(pre[1..], rest, p);
      assert TrimStart(pre + rest, p) == TrimStart(pre[1..] + rest, p);
    } else {
      assert pre + rest == rest;
    }
  }

  lemma {:induction false} TrimEndPadded(rest: string, post: string, p: char -> bool)
    requires forall k :: 0 <= k < |post| ==> p(post[k])
    ensures TrimEnd(rest + post, p) == TrimEnd(rest, p)
    decreases |post|
  {
    if post != [] {
      var s := rest + post;
      assert s[|s| - 1] == post[|post| - 1] && p(post[|post| - 1]);
      assert s[..|s| - 1] == rest + post[..|post| - 1];
      TrimEndPadded(rest, post[..|post| - 1], p);
      assert TrimEnd(s, p) == TrimEnd(rest + post[..|post| - 1], p);
    } else {
      assert rest + post == rest;
    }
  }

  /** `strip()` removes exactly the surrounding whitespace of a text that has none at its own ends. */
  lemma StripPadded(pre: string, core: string, post: string)
    requires forall k :: 0 <= k < |pre| ==> IsSpace(pre[k])
    requires forall k :: 0 <= k < |post| ==> IsSpace(post[k])
    requires core == [] || (!IsSpace(core[0]) && !IsSpace(core[|core| - 1]))
    ensures Strip(pre + core + post) == core
  {
    assert pre + core + post == pre + (core + post);
    TrimStartPadded(pre, core + post, IsSpace);
    if core == [] {
      assert core + post == post + [];
      TrimStartPadded(post, [], IsSpace);
    } else {
      assert (core + post)[0] == core[0];
      TrimEndPadded(core, post, IsSpace);
    }
  }
}

=== FILE: run.dfy ===
/**
 `crawl()` as one transition of the crawler's persistent state: crawl
 every tag, normalise the tags column, settle the images, write the
 watermarks, and merge the kept rows and their images into the archive.
 */
module Run {
  import opened Wrappers
  import opened Captions
  import opened Posts
  import opened CrawlLoop
  import opened TimeLog
  import opened ImageStage
  import opened Sequences

  /**
   What survives between runs: the post archive (`post_data.pickle`), the
   rows waiting for their image (`image_not_downloaded.pickle`), the text of
   each tag's log file, and the file names in the image directory and in
   the temporary image directory.
   */
  datatype RunState = RunState(
    archive: seq<TableRow>,
    pending: seq<TableRow>,
    logs: map<string, string>,
    images: set<string>,
    tempImages: set<string>)

  /** The watermark each tag's crawl reads, from the logs as they stood when the run began. */
  function Watermarks(tags: seq<string>, logs: map<string, string>): (marks: seq<int>)
    requires forall t :: t in tags ==> t in logs
    ensures |marks| == |tags|
    ensures forall k :: 0 <= k < |tags| ==> marks[k] == ReadWatermark(logs[tags[k]])
  {
    seq(|tags|, k requires 0 <= k < |tags| => ReadWatermark(logs[tags[k]]))
  }

  /** A row some tag's crawl may return: a normalised post of that tag's feed, newer than its watermark. */
  ghost predicate Collected(row: CrawledRow, feeds: seq<seq<FeedItem>>, marks: seq<int>)
    requires |marks| == |feeds|
  {
    exists k :: 0 <= k < |feeds| && row in Normalised(feeds[k]) && row.createdTime > marks[k]
  }

  /** The rows every tag's crawl returns, tag after tag. */
  function CrawlAll(feeds: seq<seq<FeedItem>>, marks: seq<int>): (rows: seq<CrawledRow>)
    requires |marks| == |feeds|
    ensures forall row :: row in rows ==> Collected(row, feeds, marks)
    decreases |feeds|
  {
    if feeds == [] then []
    else
      var n := |feeds| - 1;
      var before := CrawlAll(feeds[..n], marks[..n]);
      var last := CrawlTag(feeds[n], marks[n], 0).rows;
      CollectedStep(feeds, marks, before, last);
      before + last
  }

  lemma CollectedStep(feeds: seq<seq<FeedItem>>, marks: seq<int>, before: seq<CrawledRow>, last: seq<CrawledRow>)
    requires |marks| == |feeds| && feeds != []
    requires forall row :: row in before ==> Collected(row, feeds[..|feeds| - 1], marks[..|feeds| - 1])
    requires last == CrawlTag(feeds[|feeds| - 1], marks[|feeds| - 1], 0).rows
    ensures forall row :: row in before + last ==> Collected(row, feeds, marks)
  {
    var n := |feeds| - 1;
    forall row | row in before + last ensures Collected(row, feeds, marks) {
      if row in before {
        var k :| 0 <= k < n && row in Normalised(feeds[..n][k]) && row.createdTime > marks[..n][k];
        assert feeds[..n][k] == feeds[k] && marks[..n][k] == marks[k];
      } else {
        PrefixMember(last, Normalised(feeds[n]), row);
        var i :| 0 <= i < |last| && last[i] == row;
        assert row.createdTime > marks[n];
      }
    }
  }

  /** The rows of tag `k`'s crawl follow those of the tags before it, ahead of those after it. */
  lemma {:induction false} CrawlAllBlock(feeds: seq<seq<FeedItem>>, marks: seq<int>, k: nat)
    requires |marks| == |feeds| && k < |feeds|
    ensures CrawlAll(feeds[..k], marks[..k]) + CrawlTag(feeds[k], marks[k], 0).rows <= CrawlAll(feeds, marks)
    decreases |feeds|
  {
    var n := |feeds| - 1;
    var before := CrawlAll(feeds[..n], marks[..n]);
    var all := before + CrawlTag(feeds[n], marks[n], 0).rows;
    assert CrawlAll(feeds, marks) == all;
    if k < n {
      CrawlAllBlock(feeds[..n], marks[..n], k);
      assert feeds[..n][..k] == feeds[..k] && marks[..n][..k] == marks[..k];
      assert feeds[..n][k] == feeds[k] && marks[..n][k] == marks[k];
      PrefixOfPrefix(CrawlAll(feeds[..k], marks[..k]) + CrawlTag(feeds[k], marks[k], 0).rows, before,
        CrawlTag(feeds[n], marks[n], 0).rows);
    }
  }

  /** Every row any tag's crawl returns is in the batch. */
  lemma CrawlAllComplete(feeds: seq<seq<FeedItem>>, marks: seq<int>)
    requires |marks| == |feeds|
    ensures forall k, row :: 0 <= k < |feeds| && row in CrawlTag(feeds[k], marks[k], 0).rows ==> row in CrawlAll(feeds, marks)
  {
    forall k, row | 0 <= k < |feeds| && row in CrawlTag(feeds[k], marks[k], 0).rows
      ensures row in CrawlAll(feeds, marks)
    {
      CrawlAllBlock(feeds, marks, k);
      var block := CrawlAll(feeds[..k], marks[..k]) + CrawlTag(feeds[k], marks[k], 0).rows;
      InAppend(block, CrawlAll(feeds[..k], marks[..k]), CrawlTag(feeds[k], marks[k], 0).rows, row);
      PrefixMember(block, CrawlAll(feeds, marks), row);
    }
  }

  /** `filter_tags` as the function `apply` maps over the tags column. */
  function Splitter(isAlnum: char -> bool): string -> seq<string>
  {
    tags => FilterTags(tags, isAlnum)
  }

  /** `apply(split)` on the tags column: every other column is kept. */
  function MapTags(rows: seq<CrawledRow>, split: string -> seq<string>): (table: seq<TableRow>)
    ensures |table| == |rows|
    ensures forall i :: 0 <= i < |rows| ==> table[i] == rows[i].WithTags(split(rows[i].tags))
  {
    seq(|rows|, i requires 0 <= i < |rows| => rows[i].WithTags(split(rows[i].tags)))
  }

  lemma MapTagsConcat(a: seq<CrawledRow>, b: seq<CrawledRow>, split: string -> seq<string>)
    ensures MapTags(a + b, split) == MapTags(a, split) + MapTags(b, split)
  {
    var l, ra, rb := MapTags(a + b, split), MapTags(a, split), MapTags(b, split);
    forall i | 0 <= i < |l| ensures l[i] == (ra + rb)[i] {
      if i < |a| {
        assert (a + b)[i] == a[i];
      } else {
        assert (a + b)[i] == b[i - |a|];
      }
    }
  }

  /**
   The table `downloadImage` works through: this run's crawled rows, then
   the rows deferred by the previous run. `drop_duplicates`' result is
   discarded, so no row is removed.
   */
  function Batch(s: RunState, tags: seq<string>, feeds: seq<seq<FeedItem>>, isAlnum: char -> bool): seq<TableRow>
    requires |feeds| == |tags|
    requires forall t :: t in tags ==> t in s.logs
  {
    MapTags(CrawlAll(feeds, Watermarks(tags, s.logs)), Splitter(isAlnum)) + s.pending
  }

  /** The outcome of fetching the image of each of the first `n` rows. */
  function Attempts(fetch: nat -> Fetch, n: nat): (fetches: seq<Fetch>)
    ensures |fetches| == n
    ensures forall i :: 0 <= i < n ==> fetches[i] == fetch(i)
  {
    seq(n, i requires 0 <= i < n => fetch(i))
  }

  /** True when no later entry repeats the tag at position `k`. */
  ghost predicate LastOccurrence(tags: seq<string>, k: nat)
    requires k < |tags|
  {
    forall j :: k < j < |tags| ==> tags[j] != tags[k]
  }

  /**
   `starttime_dict` after the crawl loop: each tag's start time, the last
   crawl winning when a tag is listed twice.
   */
  function RecordStarts(tags: seq<string>, starts: seq<Instant>): (dict: map<string, Instant>)
    requires |starts| == |tags|
    ensures forall t :: t in dict <==> t in tags
    ensures forall k :: 0 <= k < |tags| && LastOccurrence(tags, k) ==> dict[tags[k]] == starts[k]
    decreases |tags|
  {
    if tags == [] then map[]
    else
      var n := |tags| - 1;
      var before := RecordStarts(tags[..n], starts[..n]);
      StartsPrefix(tags, starts);
      before[tags[n] := starts[n]]
  }

  lemma StartsPrefix(tags: seq<string>, starts: seq<Instant>)
    requires |starts| == |tags| && tags != []
    ensures forall k :: 0 <= k < |tags| - 1 ==> tags[..|tags| - 1][k] == tags[k] && starts[..|tags| - 1][k] == starts[k]
    ensures forall k :: 0 <= k < |tags| - 1 && LastOccurrence(tags, k) ==> LastOccurrence(tags[..|tags| - 1], k)
    ensures forall k :: 0 <= k < |tags| - 1 && LastOccurrence(tags, k) ==> tags[k] != tags[|tags| - 1]
    ensures forall t :: t in tags <==> t in tags[..|tags| - 1] || t == tags[|tags| - 1]
  {
    assert tags == tags[..|tags| - 1] + [tags[|tags| - 1]];
  }

  /**
   The `updateTimeLog` loop: each listed tag's log is overwritten with its
   recorded start time; other logs are untouched.
   */
  function WriteLogs(logs: map<string, string>, tags: seq<string>, dict: map<string, Instant>): (r: map<string, string>)
    requires forall t :: t in tags ==> t in dict
    ensures forall t :: t in r <==> t in logs || t in tags
    ensures forall t :: t in tags ==> r[t] == WriteWatermark(dict[t])
    ensures forall t :: t in logs && t !in tags ==> r[t] == logs[t]
    decreases |tags|
  {
    if tags == [] then logs
    else
      var rest := WriteLogs(logs[tags[0] := WriteWatermark(dict[tags[0]])], tags[1..], dict);
      assert forall t :: t in tags ==> t == tags[0] || t in tags[1..];
      rest
  }

  /** The state after `mergeTemp`: archive extended, temporary images moved unless the name is taken. */
  function MergeTemp(s: RunState, kept: seq<TableRow>): (r: RunState)
    ensures r.archive == s.archive + kept
    ensures r.pending == s.pending && r.logs == s.logs
    ensures forall name :: name in r.images <==> name in s.images || name in s.tempImages
    ensures forall name :: name in r.tempImages <==> name in s.tempImages && name in s.images
  {
    s.(archive := s.archive + kept, images := s.images + s.tempImages, tempImages := s.tempImages * s.images)
  }

  /**
   One `crawl()`, with image positions labelled correctly. `starts[k]` is
   the clock reading when the crawl of `tags[k]` began and `fetch(i)` the
   outcome of fetching the image of the `i`-th row of the batch. Rows whose
   image arrived join the archive, rows to retry become the pending table,
   and the rows with a 404 are gone; every listed tag's log reads back as
   its start second; every downloaded image ends up in the image directory.
   */
  function CrawlRun(s: RunState, tags: seq<string>, feeds: seq<seq<FeedItem>>, starts: seq<Instant>,
                    fetch: nat -> Fetch, isAlnum: char -> bool): (r: RunState)
    requires |feeds| == |tags| && |starts| == |tags|
    requires forall t :: t in tags ==> t in s.logs
    ensures var b := Batch(s, tags, feeds, isAlnum);
      var fetches := Attempts(fetch, |b|);
      && r.archive == s.archive + WithFate(b, fetches, Downloaded)
      && r.pending == WithFate(b, fetches, Deferred)
      && multiset(r.archive) + multiset(r.pending) + multiset(WithFate(b, fetches, Missing))
        == multiset(s.archive) + multiset(b)
    ensures forall t :: t in r.logs <==> t in s.logs
    ensures forall t :: t in s.logs && t !in tags ==> r.logs[t] == s.logs[t]
    ensures forall k :: 0 <= k < |tags| && LastOccurrence(tags, k) ==> ReadWatermark(r.logs[tags[k]]) == Seconds(starts[k])
    ensures |s.archive| <= |r.archive|
    ensures forall row :: row in r.archive[|s.archive|..] ==> ImageFileName(row) in r.images
    ensures forall name :: name in r.tempImages ==> name in s.images
  {
    var b := Batch(s, tags, feeds, isAlnum);
    var fetches := Attempts(fetch, |b|);
    var settled := Download(b, fetches);
    ArchiveGrows(s.archive, b, fetches);
    LogsAdvance(s.logs, tags, starts);
    var temp := s.tempImages + ImageFileNames(settled.kept);
    KeptImagesSaved(settled.kept, s.images, temp);
    MergeTemp(s.(pending := settled.deferred, logs := WriteLogs(s.logs, tags, RecordStarts(tags, starts)),
      tempImages := temp), settled.kept)
  }

  lemma ArchiveGrows(archive: seq<TableRow>, b: seq<TableRow>, fetches: seq<Fetch>)
    requires |b| == |fetches|
    ensures multiset(archive + WithFate(b, fetches, Downloaded)) + multiset(WithFate(b, fetches, Deferred))
      + multiset(WithFate(b, fetches, Missing)) == multiset(archive) + multiset(b)
  {
    FatesPartition(b, fetches);
  }

  lemma LogsAdvance(logs: map<string, string>, tags: seq<string>, starts: seq<Instant>)
    requires |starts| == |tags|
    requires forall t :: t in tags ==> t in logs
    ensures var r := WriteLogs(logs, tags, RecordStarts(tags, starts));
      && (forall t :: t in r <==> t in logs)
      && (forall t :: t in logs && t !in tags ==> r[t] == logs[t])
      && (forall k :: 0 <= k < |tags| && LastOccurrence(tags, k) ==> ReadWatermark(r[tags[k]]) == Seconds(starts[k]))
  {
    var dict := RecordStarts(tags, starts);
    var r := WriteLogs(logs, tags, dict);
    forall k | 0 <= k < |tags| && LastOccurrence(tags, k)
      ensures ReadWatermark(r[tags[k]]) == Seconds(starts[k])
    {
      assert tags[k] in tags;
      WatermarkRoundTrip(starts[k]);
    }
  }

  lemma KeptImagesSaved(kept: seq<TableRow>, images: set<string>, temp: set<string>)
    requires ImageFileNames(kept) <= temp
    ensures forall row :: row in kept ==> ImageFileName(row) in images + temp
  {
    forall row | row in kept ensures ImageFileName(row) in images + temp {
      var i :| 0 <= i < |kept| && kept[i] == row;
    }
  }

  /**
   `mergeTemp` over a whole run: the image directory gains exactly the
   images left in the temporary directory and those this run downloaded,
   and nothing leaves it; of those, only the ones whose name was already
   taken stay behind in the temporary directory.
   */
  lemma RunMovesImages(s: RunState, tags: seq<string>, feeds: seq<seq<FeedItem>>, starts: seq<Instant>,
                       fetch: nat -> Fetch, isAlnum: char -> bool)
    requires |feeds| == |tags| && |starts| == |tags|
    requires forall t :: t in tags ==> t in s.logs
    ensures var b := Batch(s, tags, feeds, isAlnum);
      var kept := WithFate(b, Attempts(fetch, |b|), Downloaded);
      var r := CrawlRun(s, tags, feeds, starts, fetch, isAlnum);
      && (forall name :: name in r.images <==>
            name in s.images || name in s.tempImages || exists k :: 0 <= k < |kept| && name == ImageFileName(kept[k]))
      && (forall name :: name in r.tempImages <==>
            name in s.images && (name in s.tempImages || exists k :: 0 <= k < |kept| && name == ImageFileName(kept[k])))
  {
    var b := Batch(s, tags, feeds, isAlnum);
    var fetches := Attempts(fetch, |b|);
    var kept := Download(b, fetches).kept;
    var temp := s.tempImages + ImageFileNames(kept);
    var merged := MergeTemp(s.(pending := Download(b, fetches).deferred,
      logs := WriteLogs(s.logs, tags, RecordStarts(tags, starts)), tempImages := temp), kept);
    assert CrawlRun(s, tags, feeds, starts, fetch, isAlnum) == merged;
  }

  /** How a run ends as written: it completes, or `drop` raises once the images have been fetched. */
  datatype RunOutcome = Completed(state: RunState) | Aborted(state: RunState)

  /**
   One `crawl()` as written. When every image arrives it is the run above.
   Otherwise it aborts after the images that did arrive were saved to the
   temporary directory: the archive, the pending table, the logs and the
   image directory are as they were.
   */
  function CrawlRunAsWritten(s: RunState, tags: seq<string>, feeds: seq<seq<FeedItem>>, starts: seq<Instant>,
                             fetch: nat -> Fetch, isAlnum: char -> bool): (r: RunOutcome)
    requires |feeds| == |tags| && |starts| == |tags|
    requires forall t :: t in tags ==> t in s.logs
    ensures var b := Batch(s, tags, feeds, isAlnum);
      r.Completed? <==> forall i :: 0 <= i < |b| ==> FateOf(fetch(i)) == Downloaded
    ensures r.Completed? ==> r.state == CrawlRun(s, tags, feeds, starts, fetch, isAlnum)
    ensures r.Aborted? ==> r.state == s.(tempImages := r.state.tempImages)
  {
    var b := Batch(s, tags, feeds, isAlnum);
    var fetches := Attempts(fetch, |b|);
    AllArrive(b, fetch);
    if DownloadAsWritten(b, fetches).None? then
      Aborted(s.(tempImages := s.tempImages + ImageFileNames(WithFate(b, fetches, Downloaded))))
    else
      Completed(CrawlRun(s, tags, feeds, starts, fetch, isAlnum))
  }

  lemma AllArrive(b: seq<TableRow>, fetch: nat -> Fetch)
    ensures DownloadAsWritten(b, Attempts(fetch, |b|)).Some? <==> forall i :: 0 <= i < |b| ==> FateOf(fetch(i)) == Downloaded
  {
    var fetches := Attempts(fetch, |b|);
    assert (forall i :: 0 <= i < |b| ==> FateOf(fetch(i)) == Downloaded)
      <==> (forall i :: 0 <= i < |fetches| ==> FateOf(fetches[i]) == Downloaded);
  }

  /**
   After a run, the next crawl of a tag collects only posts dated after the
   second its previous crawl started.
   */
  lemma RunAdvancesWatermark(s: RunState, tags: seq<string>, feeds: seq<seq<FeedItem>>, starts: seq<Instant>,
                             fetch: nat -> Fetch, isAlnum: char -> bool, k: nat, feed: seq<FeedItem>)
    requires |feeds| == |tags| && |starts| == |tags|
    requires forall t :: t in tags ==> t in s.logs
    requires k < |tags| && LastOccurrence(tags, k)
    ensures var r := CrawlRun(s, tags, feeds, starts, fetch, isAlnum);
      forall row :: row in CrawlTag(feed, ReadWatermark(r.logs[tags[k]]), 0).rows ==> row.createdTime > Seconds(starts[k])
  {
    var r := CrawlRun(s, tags, feeds, starts, fetch, isAlnum);
    var rows := CrawlTag(feed, ReadWatermark(r.logs[tags[k]]), 0).rows;
    assert ReadWatermark(r.logs[tags[k]]) == Seconds(starts[k]);
    forall row | row in rows ensures row.createdTime > Seconds(starts[k]) {
      var i :| 0 <= i < |rows| && rows[i] == row;
    }
  }

  lemma CrawlTwice(f: seq<FeedItem>, w: int)
    ensures CrawlAll([f, f], [w, w]) == CrawlTag(f, w, 0).rows + CrawlTag(f, w, 0).rows
  {
    var once := CrawlTag(f, w, 0).rows;
    assert [f, f][..1] == [f] && [w, w][..1] == [w];
    assert [f][..0] == [] && [w][..0] == [];
    assert CrawlAll([], []) == [];
    assert CrawlAll([f], [w]) == [] + once == once;
    assert CrawlAll([f, f], [w, w]) == CrawlAll([f], [w]) + once;
  }

  /** When every image arrives, the whole batch joins the archive and nothing is left pending. */
  lemma EveryImageArrives(s: RunState, tags: seq<string>, feeds: seq<seq<FeedItem>>, starts: seq<Instant>,
                          fetch: nat -> Fetch, isAlnum: char -> bool)
    requires |feeds| == |tags| && |starts| == |tags|
    requires forall t :: t in tags ==> t in s.logs
    requires forall i: nat :: FateOf(fetch(i)) == Downloaded
    ensures var r := CrawlRun(s, tags, feeds, starts, fetch, isAlnum);
      r.archive == s.archive + Batch(s, tags, feeds, isAlnum) && r.pending == []
  {
    var b := Batch(s, tags, feeds, isAlnum);
    AllDownloaded(b, Attempts(fetch, |b|));
  }

  lemma BatchOfRepeatedTag(s: RunState, t: string, f: seq<FeedItem>, isAlnum: char -> bool)
    requires t in s.logs && s.pending == []
    ensures var rows := MapTags(CrawlTag(f, ReadWatermark(s.logs[t]), 0).rows, Splitter(isAlnum));
      Batch(s, [t, t], [f, f], isAlnum) == rows + rows
  {
    var once := CrawlTag(f, ReadWatermark(s.logs[t]), 0).rows;
    assert Watermarks([t, t], s.logs) == [ReadWatermark(s.logs[t]), ReadWatermark(s.logs[t])];
    CrawlTwice(f, ReadWatermark(s.logs[t]));
    MapTagsConcat(once, once, Splitter(isAlnum));
    var rows := MapTags(once, Splitter(isAlnum));
    assert rows + rows + [] == rows + rows;
  }

  /**
   The result of `drop_duplicates` is discarded, so nothing deduplicates:
   a tag listed twice is crawled twice from the same watermark, and when
   every image arrives each of its rows joins the archive twice.
   */
  lemma DuplicatesReachArchive(s: RunState, t: string, f: seq<FeedItem>, starts: seq<Instant>,
                               fetch: nat -> Fetch, isAlnum: char -> bool)
    requires t in s.logs && |starts| == 2 && s.pending == []
    requires forall i: nat :: FateOf(fetch(i)) == Downloaded
    ensures var rows := MapTags(CrawlTag(f, ReadWatermark(s.logs[t]), 0).rows, Splitter(isAlnum));
      CrawlRun(s, [t, t], [f, f], starts, fetch, isAlnum).archive == s.archive + rows + rows
  {
    var rows := MapTags(CrawlTag(f, ReadWatermark(s.logs[t]), 0).rows, Splitter(isAlnum));
    var b := Batch(s, [t, t], [f, f], isAlnum);
    var r := CrawlRun(s, [t, t], [f, f], starts, fetch, isAlnum);
    BatchOfRepeatedTag(s, t, f, isAlnum);
    EveryImageArrives(s, [t, t], [f, f], starts, fetch, isAlnum);
    AppendTwice(r.archive, s.archive, b, rows);
  }

  /** The rows the previous run deferred come last in this run's batch, in the order they were deferred. */
  lemma PendingRowsRetried(s: RunState, tags: seq<string>, feeds: seq<seq<FeedItem>>, isAlnum: char -> bool, j: nat)
    requires |feeds| == |tags|
    requires forall t :: t in tags ==> t in s.logs
    requires j < |s.pending|
    ensures var b := Batch(s, tags, feeds, isAlnum);
      |s.pending| <= |b| && b[|b| - |s.pending| + j] == s.pending[j]
  {
    TailIndex(MapTags(CrawlAll(feeds, Watermarks(tags, s.logs)), Splitter(isAlnum)), s.pending, j);
  }

  /**
   A row of the batch whose image arrives joins the archive; one whose
   fetch is neither a 200 nor a 404 is pending for the next run.
   */
  lemma FetchDecidesRow(s: RunState, tags: seq<string>, feeds: seq<seq<FeedItem>>, starts: seq<Instant>,
                        fetch: nat -> Fetch, isAlnum: char -> bool, i: nat)
    requires |feeds| == |tags| && |starts| == |tags|
    requires forall t :: t in tags ==> t in s.logs
    requires i < |Batch(s, tags, feeds, isAlnum)|
    ensures var b := Batch(s, tags, feeds, isAlnum);
      var r := CrawlRun(s, tags, feeds, starts, fetch, isAlnum);
      && (FateOf(fetch(i)) == Downloaded ==> b[i] in r.archive)
      && (FateOf(fetch(i)) == Deferred ==> b[i] in r.pending)
  {
    var b := Batch(s, tags, feeds, isAlnum);
    var fetches := Attempts(fetch, |b|);
    var r := CrawlRun(s, tags, feeds, starts, fetch, isAlnum);
    if FateOf(fetch(i)) == Downloaded {
      WithFateHas(b, fetches, Downloaded, i);
      InAppend(r.archive, s.archive, WithFate(b, fetches, Downloaded), b[i]);
    } else if FateOf(fetch(i)) == Deferred {
      WithFateHas(b, fetches, Deferred, i);
    }
  }

  /**
   As written, an aborted run changes nothing the next run reads: with the
   same feeds and the same fetch outcomes it aborts again, so one image that
   keeps failing stops every later run from archiving or advancing a log.
   */
  lemma AbortedRunRepeats(s: RunState, tags: seq<string>, feeds: seq<seq<FeedItem>>, starts: seq<Instant>,
                          fetch: nat -> Fetch, isAlnum: char -> bool)
    requires |feeds| == |tags| && |starts| == |tags|
    requires forall t :: t in tags ==> t in s.logs
    ensures var first := CrawlRunAsWritten(s, tags, feeds, starts, fetch, isAlnum);
      first.Aborted? ==>
        && first.state.archive == s.archive && first.state.pending == s.pending && first.state.logs == s.logs
        && CrawlRunAsWritten(first.state, tags, feeds, starts, fetch, isAlnum).Aborted?
  {
    var first := CrawlRunAsWritten(s, tags, feeds, starts, fetch, isAlnum);
    if first.Aborted? {
      assert Batch(first.state, tags, feeds, isAlnum) == Batch(s, tags, feeds, isAlnum);
    }
  }
}

=== FILE: sequences.dfy ===
/** Small facts about prefixes, concatenation and membership of sequences. */
module Sequences {

  /** A prefix stays a prefix when the longer sequence is extended. */
  lemma PrefixOfPrefix<T>(a: seq<T>, b: seq<T>, c: seq<T>)
    requires a <= b
    ensures a <= b + c
  {
    assert (b + c)[..|b|] == b;
  }

  /** An element of a prefix is an element of the whole. */
  lemma PrefixMember<T>(a: seq<T>, b: seq<T>, x: T)
    requires a <= b && x in a
    ensures x in b
  {
    var i :| 0 <= i < |a| && a[i] == x;
    assert b[i] == x;
  }

  /** Appending a doubled block is appending the block twice. */
  lemma AppendTwice<T>(a: seq<T>, x: seq<T>, b: seq<T>, rows: seq<T>)
    requires a == x + b && b == rows + rows
    ensures a == x + rows + rows
  {
  }

  /** The `j`-th element of the last part of a concatenation. */
  lemma TailIndex<T>(a: seq<T>, p: seq<T>, j: nat)
    requires j < |p|
    ensures (a + p)[|a + p| - |p| + j] == p[j]
  {
  }

  /** An element of the second part of a concatenation is an element of the whole. */
  lemma InAppend<T>(whole: seq<T>, a: seq<T>, b: seq<T>, x: T)
    requires whole == a + b && x in b
    ensures x in whole
  {
  }
}

=== FILE: time_log.dfy ===
/**
 The per-tag watermark log: one text file per tag under the time-log
 directory, created empty for a new tag, read back as the date before
 which posts are not collected, and overwritten with the whole-second
 start time of the tag's crawl.
 */
module TimeLog {
  import opened Wrappers
  import opened PyStrings
  import Decimal

  /** A wall-clock reading at the microsecond resolution of `datetime`, as microseconds since the epoch. */
  datatype Instant = Instant(micros: int)

  const MicrosPerSecond: int := 1000000

  /**
   `int(t.timestamp())`: whole seconds since the epoch, truncated toward
   zero, so an instant before the epoch rounds up rather than down.
   */
  function Seconds(t: Instant): (s: int)
    ensures t.micros >= 0 ==> 0 <= t.micros - s * MicrosPerSecond < MicrosPerSecond
    ensures t.micros < 0 ==> -MicrosPerSecond < t.micros - s * MicrosPerSecond <= 0
  {
    if t.micros >= 0 then t.micros / MicrosPerSecond
    else -((-t.micros) / MicrosPerSecond)
  }

  /**
   The watermark `crawlTag` reads from a log file's text: the stripped text
   as a number, or 0 when it does not parse (which includes an empty file).
   */
  function ReadWatermark(text: string): (w: int)
    ensures Strip(text) == [] ==> w == 0
    ensures Decimal.Parse(Strip(text)).Some? ==> w == Decimal.Parse(Strip(text)).value
    ensures Decimal.Parse(Strip(text)).None? ==> w == 0
  {
    match Decimal.Parse(Strip(text))
    case Some(v) => v
    case None => 0
  }

  /** The text `updateTimeLog` writes for a crawl that started at `t`. */
  function WriteWatermark(t: Instant): (text: string)
    ensures text != [] && !IsSpace(text[0]) && !IsSpace(text[|text| - 1])
  {
    Decimal.ShowParse(Seconds(t));
    Decimal.Show(Seconds(t))
  }

  /** What one run writes is what the next run reads. */
  lemma WatermarkRoundTrip(t: Instant)
    ensures ReadWatermark(WriteWatermark(t)) == Seconds(t)
  {
    StripPadded([], WriteWatermark(t), []);
    assert [] + WriteWatermark(t) + [] == WriteWatermark(t);
    Decimal.ShowParse(Seconds(t));
  }

  /** Surrounding whitespace, such as a trailing newline from an editor, does not change what is read. */
  lemma PaddedWatermarkRoundTrip(pre: string, t: Instant, post: string)
    requires forall k :: 0 <= k < |pre| ==> IsSpace(pre[k])
    requires forall k :: 0 <= k < |post| ==> IsSpace(post[k])
    ensures ReadWatermark(pre + WriteWatermark(t) + post) == Seconds(t)
  {
    StripPadded(pre, WriteWatermark(t), post);
    Decimal.ShowParse(Seconds(t));
  }

  /** A log holding only whitespace reads as 0, so every post of the tag is new. */
  lemma BlankLogReadsZero(text: string)
    requires forall k :: 0 <= k < |text| ==> IsSpace(text[k])
    ensures ReadWatermark(text) == 0
  {
    StripPadded(text, [], []);
    assert text + [] + [] == text;
  }

  /** A corrupt log, one whose stripped text is not a signed numeral, reads as 0. */
  lemma CorruptLogReadsZero(text: string)
    requires !Decimal.IsInteger(Strip(text))
    ensures ReadWatermark(text) == 0
  {
    Decimal.ParseAccepts(Strip(text));
  }

  /** For instance, a stray character such as a `:` or a `/` makes the log read as 0. */
  lemma StrayCharReadsZero(text: string, i: nat)
    requires i < |Strip(text)| && !Decimal.IsDigit(Strip(text)[i])
    requires i > 0 || (Strip(text)[i] != '-' && Strip(text)[i] != '+')
    ensures ReadWatermark(text) == 0
  {
    Decimal.StrayCharRejected(Strip(text), i);
  }

  /**
   `makeBase`'s log step: every tag without a log file gets an empty one;
   existing logs are left as they are.
   */
  function EnsureLogs(logs: map<string, string>, tags: seq<string>): (r: map<string, string>)
    ensures forall t :: t in r <==> t in logs || t in tags
    ensures forall t :: t in logs ==> r[t] == logs[t]
    ensures forall t :: t in r && t !in logs ==> r[t] == []
    decreases |tags|
  {
    if tags == [] then logs
    else
      var first := if tags[0] in logs then logs else logs[tags[0] := []];
      EnsureLogs(first, tags[1..])
  }

  /** On a fresh time-log directory every tag reads watermark 0. */
  lemma FreshLogsReadZero(tags: seq<string>, t: string)
    requires t in tags
    ensures t in EnsureLogs(map[], tags) && ReadWatermark(EnsureLogs(map[], tags)[t]) == 0
  {
    BlankLogReadsZero([]);
  }
}

=== FILE: wrappers.dfy ===
/** The `Option` type, standing for the places where the crawler returns `False` or raises. */
module Wrappers {

  /** `None` stands for the source's `False` / "no value". */
  datatype Option<+T> = None | Some(value: T)
}
